=== FILE: README.md ===
# AlveusDB core in Dafny

This project models the core of AlveusDB, a small database server written in Rust, as pure Dafny functions with proved contracts. The server reads a raw HTTP request from a socket and routes it on its path. It answers with a hand-serialised HTTP response. Behind it sits a flat-file table store that keeps one JSON document per (database, table) pair. An environment-driven logger gates its log lines by severity.

The model has these modules:

- `TableStore` (`table_store.dfy`) covers `write` and `read` of `src/json.rs`.
  - The `db` directory is a `Store` value: a set of database directories and a map from `TableId` to file text.
  - serde_json's parse-and-reprint is a parameter `canon: string -> Result<string, string>`.
  - Operating-system failures are parameters: how far `write_all` got, and whether the open or the read fails in `read`.
- `Handler` (`handler.dfy`) covers `src/http_handler.rs`.
  - The request text is built from the bytes one read delivered, padded with NUL to the 1024-byte buffer.
  - It is split into the method, path, header and body tokens.
  - Routing and the fixed handler pages.
- `Headers` (`http_header.dfy`) and `Responses` (`http_response.dfy`) cover the header record, the response record, their builders and their wire text.
  - Each serialiser comes with a parser that undoes it.
  - `Headers` also has a reader for the generic HTTP/1.1 header section, as section 2.1 of RFC 9112 describes it.
- `LogLevels`, `LogEnv`, `Logger` and `LogMacros` cover the logger.
  - Level parsing and printing, the hand-written `==` and `partial_cmp`, and `log_level()` over an environment map.
  - The configuration builder and `init`.
  - The gate of the six logging macros.
- `Text` and `Wrappers` are shared helpers. `Text` has Rust's `str::split`, substring search, ASCII lower-casing, and decimal printing and parsing. `Wrappers` has `Option` and `Result`.

The clock (the `Date` header value and the log timestamp) is a string parameter everywhere. The process environment is a `map<string, string>`.

### Behaviour worth knowing

- In `write`, the table file is opened with `truncate` before the content is checked. A write that fails therefore still empties the table: a malformed write loses the table's previous content (`TableStore.WriteFailsOnlyOnBadContent`).
- A successful `write` echoes the query's original content, not the canonical text.
- The `/sql` handlers are stubs. They answer 200 with `Connecting to database: test and table: test` for GET and POST, whatever the header and body hold. They never call `json::write` or `json::read`, so no request reaches the table store.
- `handle_request` decodes the whole 1024-byte buffer. The NUL padding therefore stays in the text, and a request line that ends right after the path (`GET /`) carries the padding in its path token and gets 404 (`Handler.PaddingStaysInThePath`).
- `HttpResponse::to_string` writes `\r\n\r\n` after header lines that already end in `\r\n`. A standard HTTP/1.1 reader therefore sees the body with an extra leading `\r\n` (`Responses.ClientSeesExtraLineBreak`).

## Model

| member | source | states |
|---|---|---|
| TableStore.ResultTypeEq | src/json.rs:12-20 | the hand-written equality of result types holds exactly on equal variants |
| TableStore.Truncated | src/json.rs:62-75 | once the directory and file exist and the file is opened with truncate, the database and table exist, the table is empty and every other table is unchanged |
| TableStore.Written | src/json.rs:104-111 | a complete `write_all` leaves the whole canonical text in the file; a failed one leaves a prefix of it no longer than the point of failure |
| TableStore.Write | src/json.rs:51-114 | after any write the database and table exist (even when the result is an error), no other table changes, and the result echoes the query exactly |
| TableStore.Read | src/json.rs:116-192 | read succeeds iff the database and the table exist and the file opens and reads; errors echo the query unchanged; the result keeps the query's database and table |
| TableStore.WritePreservesValid | src/json.rs:62-75 | every table file stays inside its database directory across a write |
| TableStore.WriteWithoutContent | src/json.rs:71-81 | missing content gives Error "query content is empty" and leaves the table empty |
| TableStore.WriteInvalidJson | src/json.rs:83-94 | content the canonicaliser refuses gives Error "query content is not valid json: " plus its message, and an empty table |
| TableStore.WriteFailsOnlyOnBadContent | src/json.rs:71-102 | write reports Error iff the content is missing or refused, and every failed write leaves the table empty |
| TableStore.WriteStoresCanonical | src/json.rs:51-113 | a successful write reports "query processed successfully", echoes the original content, and the table holds the canonical text (a prefix of it if `write_all` failed) |
| TableStore.LastWriteWins | src/json.rs:71-113 | a second write to the same table erases every trace of the first: the store equals the one the second write alone gives |
| TableStore.WriteIdempotent | src/json.rs:95-104 | writing the same query twice gives the same store as writing it once |
| TableStore.WriteTouchesOneTable | src/json.rs:62-75 | a write neither adds, removes nor changes any other table |
| TableStore.ReadMissingDatabase | src/json.rs:118-129 | a missing database gives Error "database does not exist" with the query echoed, before the table is looked at |
| TableStore.ReadMissingTable | src/json.rs:130-141 | an existing database without the table gives Error "table does not exist" with the query echoed |
| TableStore.ReadIoErrors | src/json.rs:143-179 | a failing open or read gives "error opening file: " or "error reading file: " plus the system message, with the query echoed |
| TableStore.ReadReturnsStoredText | src/json.rs:181-191 | a successful read returns exactly the stored text as content, whatever content the query carried |
| TableStore.WriteThenRead | src/json.rs:51-192 | after a complete successful write, reading the same table returns the canonical text of the written content |
| TableStore.FailedWriteThenRead | src/json.rs:71-191 | after a failed write, reading the table succeeds with the empty text |
| TableStore.TestScenario | src/json.rs:198-243 | the module's test: writing the sample document to test/users succeeds and reads back in the expected canonical form, and test/users2 reads as "table does not exist" |
| Text.Split | src/http_handler.rs:18-19 | `str::split`: the pieces joined with the separator give the text back, no piece contains the separator, no occurrence starts inside the first piece, and there are at least two pieces iff the text contains it |
| Text.SplitPiecesAreLeftmost | src/http_handler.rs:18-19 | every piece sits where the earlier pieces and separators end, no occurrence of the separator starts inside it, and an occurrence follows it unless it is the last piece: the pieces are cut at the leftmost non-overlapping occurrences |
| Text.Lower | src/logger/log_level.rs:12 | lower-casing keeps the length, leaves no upper-case ASCII letter, changes no other character and maps each upper-case letter to its lower-case partner |
| Text.LowerIdempotent | src/logger/log_level.rs:12 | lower-casing an already lower-cased text changes nothing |
| Text.Decimal | src/http_response.rs:41 | a status code is written as a non-empty run of decimal digits without a leading zero |
| Text.ParseDecimalOfDecimal | src/http_response.rs:41 | the decimal text of a status code reads back as that number |
| Handler.RequestText | src/http_handler.rs:13-17 | the decoded buffer is exactly 1024 characters: the received ones, cut to the buffer, followed by NUL |
| Handler.RequestMethod | src/http_handler.rs:18 | the method is the whole text when it holds no space, and otherwise the space-free text before the first space |
| Handler.RequestPath | src/http_handler.rs:19 | the path is the space-free text after the method's space, ending at the next space or at the end |
| Handler.RequestHeader | src/http_handler.rs:42 | the header is the text before the first `\r\n\r\n`: no occurrence starts inside it, and it is the whole text when there is none |
| Handler.RequestBody | src/http_handler.rs:44 | the body starts right after the first `\r\n\r\n`, no occurrence starts inside it, and it ends at the next occurrence or at the end |
| Handler.HeaderAndBodyOf | src/http_handler.rs:42-44 | for `h \r\n\r\n b rest` where no `\r\n\r\n` starts inside `h` or `b` (not even one running on into the following separator), and `rest` is empty or starts with another separator, the header is `h` and the body is `b` |
| Handler.HeaderOfTwoLineRequest | src/http_handler.rs:42-44 | a request of two CRLF-ended lines such as `GET / HTTP/1.1\r\nHost: x\r\n`, then the blank line and a body, has the two lines without the final line break as its header and the rest as its body |
| Handler.Page | src/http_handler.rs:80-107 | every handler's page is HTTP/1.1 with a fresh header carrying Content-Type text/html, with the given status and content |
| Handler.Index | src/http_handler.rs:100-108 | `index` answers 200 with the greeting |
| Handler.UnknownPath | src/http_handler.rs:90-98 | `unknown_path` answers 404 |
| Handler.UnsupportedMethod | src/http_handler.rs:80-88 | `unsupported_method` answers 405 |
| Handler.DbGetHandler | src/http_handler.rs:56-66 | the GET handler answers 200 with the stub text, whatever the body and header |
| Handler.DbPostHandler | src/http_handler.rs:68-78 | the POST handler, a line-for-line copy of the GET handler, answers 200 with the stub text, whatever the body and header |
| Handler.DbHandler | src/http_handler.rs:39-54 | `db_handler` answers the stub for GET and POST and 405 for any other method |
| Handler.Route | src/http_handler.rs:24-28 | every routed answer is an HTML page over HTTP/1.1 |
| Handler.DummyResponse | src/http_handler.rs:110-118 | `dummy_response` is an HTML page with status 200 whose content is the path, ` - `, the method, ` - ` and `200` |
| Handler.RouteFollowsTable | src/http_handler.rs:24-54 | every answerable request gets the status and content that an independent routing table gives for its method and path |
| Handler.TokensOf | src/http_handler.rs:18-19 | for a request `m p rest` with space-free `m` and `p`, the method is `m`, and the path is `p` when `rest` is empty or starts with a space |
| Handler.RouteIgnoresHeaderAndBody | src/http_handler.rs:39-78 | two requests with the same method and path get the same response |
| Handler.IndexForEveryMethod | src/http_handler.rs:25 | path `/` gets the greeting page whatever the method |
| Handler.SqlWithQueryIsUnknown | src/http_handler.rs:24-27 | a path that only starts with `/sql`, such as `/sql?x`, gets 404 |
| Handler.SqlByMethod | src/http_handler.rs:47-77 | on `/sql`, GET and POST get the same stub page and any other method gets 405 |
| Handler.PaddingStaysInThePath | src/http_handler.rs:13-19 | a request that ends right after the path keeps the NUL padding in its path token and is answered 404, even for `/` |
| Handler.DummyContentReadsBack | src/http_handler.rs:110-117 | the dummy content splits on ` - ` back into the path, the method and `200` |
| Handler.PageOnTheWire | src/http_handler.rs:80-118 | each handler page is sent as the status line, the Content-Type line, the Date line, the separator and the content |
| Handler.HandleRequest | src/http_handler.rs:10-37 | the text handed to `stream.write` for an answerable request is the status line, Content-Type and Date lines, separator and content of the page that an independent routing table names for its method and path |
| Headers.New | src/http_header.rs:46-90 | a fresh header has only Date set, to the given date |
| Headers.WithContentType | src/http_header.rs:92-95 | `with_content_type` sets Content-Type and keeps every other field |
| Headers.NameFacts | src/http_header.rs:101-223 | every field's written name is a non-empty token of letters, digits and `-`, and reads back as that field |
| Headers.EmitOrderIsRanked | src/http_header.rs:100-223 | the serialiser visits each of the 41 fields exactly once, in a fixed order |
| Headers.Serialize | src/http_header.rs:98-226 | every populated field's `Name: value\r\n` line appears in the text, and the text is empty iff no field is set |
| Headers.SerializeIsOneLinePerField | src/http_header.rs:98-226 | the text is exactly one `Name: value\r\n` line per populated field, none for absent ones, in strictly increasing field order |
| Headers.UpgradeBeforeUserAgent | src/http_header.rs:209-217 | Upgrade is written before User-Agent, against the struct's declaration order |
| Headers.SerializeEmpty | src/http_header.rs:100-224 | a header with every field absent writes the empty text |
| Headers.SerializeNew | src/http_header.rs:46-151 | a fresh header writes the Date line alone |
| Headers.SerializeNewWithContentType | src/http_header.rs:143-151 | a fresh header with a content type writes the Content-Type line and then the Date line |
| Headers.ParseSerialize | src/http_header.rs:98-226 | a parser of header lines reads the written text, followed by the blank line, back into exactly the header's fields |
| Headers.SkipFieldLinesOfLines | src/http_header.rs:98-226 | a generic HTTP/1.1 reader consumes the written lines up to the first empty line and leaves the rest |
| Responses.New | src/http_response.rs:11-18 | a fresh response is HTTP/1.1, status 200, empty content, header with only Date |
| Responses.WithContent | src/http_response.rs:20-23 | `with_content` replaces the content and keeps the other fields |
| Responses.WithStatusCode | src/http_response.rs:25-28 | `with_status_code` replaces the status and keeps the other fields |
| Responses.WithProtocol | src/http_response.rs:30-33 | `with_protocol` replaces the protocol and keeps the other fields |
| Responses.WithHeader | src/http_response.rs:35-38 | `with_header` replaces the header and keeps the other fields |
| Responses.ToString | src/http_response.rs:40-48 | the wire text (`to_string`, and `Display`, which writes the same) starts with the protocol and a space and ends with the content |
| Responses.ParseToString | src/http_response.rs:40-42 | a response parser reads the wire text back into the same response, when the protocol has no space and the values no carriage return |
| Responses.ToStringInjective | src/http_response.rs:40-42 | distinct readable responses have distinct wire texts |
| Responses.ClientSeesExtraLineBreak | src/http_response.rs:40-42 | a generic HTTP/1.1 reader sees the body as `\r\n` followed by the content |
| Responses.NewOnTheWire | src/http_response.rs:11-42 | a fresh response is sent as `HTTP/1.1 200`, the Date line, then the separator |
| Responses.WithContentOnTheWire | src/http_response.rs:20-42 | setting the content changes only the tail of the wire text |
| LogLevels.Display | src/logger/log_level.rs:36-47 | the `Display` name of every level is a non-empty run of lower-case ASCII letters |
| LogLevels.ToString | src/logger/log_level.rs:23-32 | `to_string` is the `Display` name with its first letter in upper case |
| LogLevels.FromStr | src/logger/log_level.rs:11-21 | a level is accepted iff the lower-cased input is its name; otherwise the error is "Invalid log level: " with the input as given |
| LogLevels.FromStrIff | src/logger/log_level.rs:11-18 | `from_str` gives level l exactly when the lower-cased input is l's name |
| LogLevels.ParsePrinted | src/logger/log_level.rs:11-46 | both printers' output, lower-case `Display` and capitalised `to_string`, parse back to the level printed |
| LogLevels.FromStrIgnoresCase | src/logger/log_level.rs:12-20 | inputs equal up to case parse to the same level, or both fail |
| LogLevels.Eq | src/logger/log_level.rs:49-60 | `==` holds exactly for equal variants other than Fatal |
| LogLevels.PartialCmp | src/logger/log_level.rs:62-95 | `partial_cmp` is always defined and compares by the order Debug < Verbose < Info < Warn < Error < Fatal |
| LogLevels.Le | src/logger/log_level.rs:62-95 | `a <= b` holds iff a comes no later than b in the order Debug < Verbose < Info < Warn < Error < Fatal |
| LogLevels.PartialCmpAntisymmetric | src/logger/log_level.rs:62-95 | `partial_cmp(a, b)` is Less iff `partial_cmp(b, a)` is Greater, and Equal iff a and b are the same variant |
| LogLevels.LeIsTotalOrder | src/logger/log_level.rs:62-95 | `<=` is reflexive (Fatal included), antisymmetric, transitive and total, and agrees with the severity order |
| LogLevels.FatalEqualityDisagreesWithOrder | src/logger/log_level.rs:49-95 | `Fatal == Fatal` is false although `partial_cmp(Fatal, Fatal)` is Equal, and that is the only such level |
| LogEnv.ConfiguredLevel | src/logger/log.rs:19-28 | the level is Info when ALVEUS_LOG is unset or does not parse, and the parsed level otherwise |
| LogEnv.ConfiguredLevelIgnoresCase | src/logger/log.rs:19-28 | ALVEUS_LOG holding a level's name in any casing selects that level |
| LogEnv.ConfiguredLevelOfToString | src/logger/log.rs:19-28 | ALVEUS_LOG holding `to_string(l)` selects l |
| Logger.New | src/logger/mod.rs:14-21 | the default builder has level Info, console on, file off and an empty path |
| Logger.SetLevel | src/logger/mod.rs:23-26 | `level` sets the level and keeps the other three fields |
| Logger.SetWriteToConsole | src/logger/mod.rs:28-31 | `write_to_console` sets the console switch and keeps the other three fields |
| Logger.SetWriteToFile | src/logger/mod.rs:33-36 | `write_to_file` sets the file switch and keeps the other three fields |
| Logger.SetFilePath | src/logger/mod.rs:38-41 | `file_path` sets the path and keeps the other three fields |
| Logger.SettersChangeOneField | src/logger/mod.rs:23-41 | each setter changes its own field only, and a later call to the same setter wins |
| Logger.Init | src/logger/mod.rs:49-55 | `init` sets the four variables to the level's `to_string`, "true"/"false" and the path, and leaves every other variable alone |
| Logger.Build | src/logger/mod.rs:43-46 | `build` performs `init` and hands back the builder unchanged |
| Logger.InitIsReadBack | src/logger/mod.rs:49-55 | after `init`, `log_level()` reports the builder's level; the two switch variables (which nothing in the crate reads) would parse back as the builder's values, and the path variable holds the path |
| LogMacros.Enabled | src/logger/macros.rs:4-49 | a macro's gate `log_level() <= Level` is open iff the configured level comes no later than the macro's in the severity order |
| LogMacros.Emit | src/logger/macros.rs:1-53 | a macro prints iff the configured level is at most its own, and the printed line ends with the message |
| LogMacros.DebugGate | src/logger/macros.rs:13 | `debug!` prints iff the configured level is Debug |
| LogMacros.InfoGate | src/logger/macros.rs:4 | `info!` prints iff the configured level is Debug, Verbose or Info |
| LogMacros.FatalAlwaysPrints | src/logger/macros.rs:49 | `fatal!` prints for every configured level |
| LogMacros.GateMonotone | src/logger/macros.rs:4-49 | if a macro prints, every macro of a level at least as severe prints too |
| LogMacros.MessageAfterFirstTab | src/logger/macros.rs:5-50 | with a tab-free timestamp, the printed message is exactly the text after the line's first tab |
| LogMacros.StartupEnablesEverything | src/main.rs:12-14 | the start-up configuration, level Debug, enables every macro |

## Left out

- The TCP listener, the accept loop and process start-up (`src/listener.rs`, `src/main.rs`) are left out. They are socket I/O. Only the start-up logger configuration is modelled.
- The socket read, write and flush, the `Instant` timing and the `debug!` calls inside the handlers are left out. They are I/O and logging. `stream.write` may write only part of the response, and its count is ignored; the model states the text handed to it.
- Handler.RequestText: the received bytes are modelled as characters. `String::from_utf8_lossy` replacing invalid UTF-8 with U+FFFD is not modelled. The 1024 limit is counted in characters, not bytes.
- Handler.HandleRequest: the precondition `Answerable` covers only the two `[1]` indexing panics: without a space, and on `/sql` without `\r\n\r\n`. The `unwrap` panics of the socket read, write and flush are not covered; the socket is outside the model.
- The `unwrap` panics of `write` on failing `create_dir`, `File::create` and `open` are not modelled. Those calls are assumed to succeed.
- TableStore.Write: serde_json is the parameter `canon`. A failure of `serde_json::to_string` after a successful parse is folded into `canon`'s error, since both give the same message prefix. No key order or whitespace is specified for it.
- TableStore.Written: the part of the text a failing `write_all` got into the file is counted in characters, not bytes.
- `Query::new` is the `Query` datatype's constructor. `Display for Query` (`src/json.rs:39-43`) is left out. Its `{:?}` formatting follows Rust's Debug escaping, and nothing in the crate uses it.
- TableStore.WriteTouchesOneTable: database and table names are taken as plain path segments. In the file system `("a", "b/c")` and `("a/b", "c")` name the same file, and a database named `""`, `.` or `..` exists as soon as `db` does. For such names a write can touch another table, so the lemma does not hold for them in the Rust code.
- Logger.Init: modelled as total. `std::env::set_var` panics when the file path holds a NUL character, and that panic is not modelled.
- The `db` root directory is not modelled separately from the database directories.
- `date_and_time` and `get_http_date` (`src/logger/log.rs:4-17`, `src/utils.rs`) read the wall clock. They are string parameters.
- The macros' `println!` is modelled as the line it would print. The ANSI colour codes are kept in the tag. `format_args!` formatting is taken as a ready message.
- Text.Lower: Rust's `to_lowercase` is Unicode-aware; the model lowers ASCII letters only. No non-ASCII character lowers into one of the six level names, so `from_str` is unaffected.
- ALVEUS_LOG_CONSOLE, ALVEUS_LOG_FILE and ALVEUS_LOG_FILE_PATH are written by `init` but never read by the macros. No file logging exists to model.
- `Headers.ParseLines`, `Responses.ParseResponse`, `Headers.SkipFieldLines` and `Responses.ClientBody` have no counterpart in the Rust code. They are readers written as partners of the serialisers.

=== FILE: handler.dfy ===
/**
  Request dispatch of `src/http_handler.rs`. `handle_request` reads one
  buffer of 1024 bytes from the socket, decodes all of it (the unused tail
  stays NUL), takes the path from a split on spaces and routes on it; the
  `/sql` handlers are stubs that answer with a fixed text. The socket, the
  timing and the debug logging are left out; the clock reading behind the
  `Date` header is the parameter `date`.
 */
module Handler {
  import opened Text
  import Headers
  import Responses

  /** The size of the buffer `handle_request` reads into. */
  const BufferSize: nat := 1024

  /**
    The text `handle_request` works on: the bytes one read delivered, cut
    to the buffer size, followed by the NUL bytes of the unused buffer tail.
   */
  function RequestText(received: string): (binding: string)
    ensures |binding| == BufferSize
    ensures forall i :: 0 <= i < |binding| ==> binding[i] == (if i < |received| then received[i] else '\0')
  {
    if |received| >= BufferSize then received[..BufferSize]
    else received + seq(BufferSize - |received|, _ => '\0')
  }

  /** The verb token: the text before the first space. */
  function RequestMethod(binding: string): (m: string)
    ensures ' ' !in m
    ensures !Contains(binding, " ") ==> m == binding
    ensures Contains(binding, " ") ==> |m| < |binding| && binding[..|m| + 1] == m + " "
  {
    SplitPieceHasNoChar(binding, ' ', 0);
    SplitFirstPiece(binding, " ");
    Split(binding, " ")[0]
  }

  /** The path token: the text between the first and the second space (or the end). Indexing `[1]` panics without a space. */
  function RequestPath(binding: string): (p: string)
    requires Contains(binding, " ")
    ensures ' ' !in p
    ensures var n := |RequestMethod(binding)| + 1 + |p|;
      && n <= |binding|
      && binding[..n] == RequestMethod(binding) + " " + p
      && (n == |binding| || binding[n] == ' ')
  {
    SplitSecondPiece(binding, " ");
    SplitPieceHasNoChar(binding, ' ', 1);
    PathEndsAtSpace(binding);
    Split(binding, " ")[1]
  }

  /** The character after the path, when there is one, is the space that ends it. */
  lemma PathEndsAtSpace(binding: string)
    requires Contains(binding, " ")
    ensures |Split(binding, " ")| >= 2
    ensures var n := |Split(binding, " ")[0]| + 1 + |Split(binding, " ")[1]|;
      n < |binding| ==> binding[n..n + 1] == " " ==> binding[n] == ' '
  {
    SplitSecondPiece(binding, " ");
  }

  /** The header part of a request: the text before the first `\r\n\r\n`. */
  function RequestHeader(binding: string): (header: string)
    ensures !Contains(header, "\r\n\r\n")
    ensures forall j: nat :: j < |header| ==> !MatchesAt(binding, "\r\n\r\n", j)
    ensures !Contains(binding, "\r\n\r\n") ==> header == binding
    ensures Contains(binding, "\r\n\r\n") ==> |header| + 4 <= |binding| && binding[..|header| + 4] == header + "\r\n\r\n"
  {
    SplitFirstPiece(binding, "\r\n\r\n");
    Split(binding, "\r\n\r\n")[0]
  }

  /** The body part: the text between the first and the second `\r\n\r\n` (or the end). Indexing `[1]` panics without a separator. */
  function RequestBody(binding: string): (body: string)
    requires Contains(binding, "\r\n\r\n")
    ensures !Contains(body, "\r\n\r\n")
    ensures var n := |RequestHeader(binding)| + 4 + |body|;
      && n <= |binding|
      && binding[..n] == RequestHeader(binding) + "\r\n\r\n" + body
      && (n == |binding| || (n + 4 <= |binding| && binding[n..n + 4] == "\r\n\r\n"))
    ensures var start := |RequestHeader(binding)| + 4;
      forall j: nat :: start <= j < start + |body| ==> !MatchesAt(binding, "\r\n\r\n", j)
  {
    var parts := Split(binding, "\r\n\r\n");
    SplitSecondPiece(binding, "\r\n\r\n");
    SplitPiecesAreLeftmost(binding, "\r\n\r\n", 1);
    assert PieceStart(parts, "\r\n\r\n", 1) == |parts[0]| + 4;
    parts[1]
  }

  /** Every handler answers over HTTP/1.1 with a fresh header whose content type is `text/html`. */
  predicate IsHtmlPage(r: Responses.HttpResponse, date: string) {
    && r.protocol == "HTTP/1.1"
    && r.header == Headers.WithContentType(Headers.New(date), "text/html")
  }

  /**
    The response every handler builds: `HttpResponse::new()` with protocol,
    status, header and content overwritten.
   */
  function Page(statusCode: Responses.U16, content: string, date: string): (r: Responses.HttpResponse)
    ensures IsHtmlPage(r, date) && r.statusCode == statusCode && r.content == content
  {
    var r := Responses.New(date);
    var r := r.(protocol := "HTTP/1.1");
    var r := r.(statusCode := statusCode);
    var r := r.(header := Headers.WithContentType(Headers.New(date), "text/html"));
    r.(content := content)
  }

  const IndexContent: string := "<h1>Hello World!</h1>"
  const NotFoundContent: string := "<h1>404 - Not Found</h1>"
  const MethodNotAllowedContent: string := "<h1>405 - Method Not Allowed</h1>"

  /** The stub text of the `/sql` handlers, formatted from a database and a table name. */
  function StubContent(database: string, table: string): string {
    "Connecting to database: " + database + " and table: " + table
  }

  /** Both `/sql` handlers format the stub with the fixed names `test` and `test`. */
  const DatabaseStubContent: string := StubContent("test", "test")

  /** `index`: 200 with the greeting. */
  function Index(date: string): (r: Responses.HttpResponse)
    ensures IsHtmlPage(r, date) && r.statusCode == 200 && r.content == IndexContent
  {
    Page(200, IndexContent, date)
  }

  /** `unknown_path`: 404. */
  function UnknownPath(date: string): (r: Responses.HttpResponse)
    ensures IsHtmlPage(r, date) && r.statusCode == 404 && r.content == NotFoundContent
  {
    Page(404, NotFoundContent, date)
  }

  /** `unsupported_method`: 405. */
  function UnsupportedMethod(date: string): (r: Responses.HttpResponse)
    ensures IsHtmlPage(r, date) && r.statusCode == 405 && r.content == MethodNotAllowedContent
  {
    Page(405, MethodNotAllowedContent, date)
  }

  /** `db_get_handler`: ignores the body and the header and answers with the stub text. */
  function DbGetHandler(body: string, header: string, date: string): (r: Responses.HttpResponse)
    ensures IsHtmlPage(r, date) && r.statusCode == 200 && r.content == DatabaseStubContent
  {
    Page(200, StubContent("test", "test"), date)
  }

  /** `db_post_handler`: the same stub as the GET handler. */
  function DbPostHandler(body: string, header: string, date: string): (r: Responses.HttpResponse)
    ensures IsHtmlPage(r, date) && r.statusCode == 200 && r.content == DatabaseStubContent
  {
    Page(200, StubContent("test", "test"), date)
  }

  /** `db_handler`: splits off header and body, then dispatches on the verb token. */
  function DbHandler(binding: string, date: string): (r: Responses.HttpResponse)
    requires Contains(binding, "\r\n\r\n")
    ensures IsHtmlPage(r, date)
    ensures RequestMethod(binding) in {"GET", "POST"} ==> r.statusCode == 200 && r.content == DatabaseStubContent
    ensures RequestMethod(binding) !in {"GET", "POST"} ==> r.statusCode == 405 && r.content == MethodNotAllowedContent
  {
    var verb := RequestMethod(binding);
    var header := RequestHeader(binding);
    var body := RequestBody(binding);
    match verb
    case "GET" => DbGetHandler(body, header, date)
    case "POST" => DbPostHandler(body, header, date)
    case _ => UnsupportedMethod(date)
  }

  /** The requests `handle_request` answers without panicking. */
  predicate Answerable(binding: string) {
    Contains(binding, " ") && (RequestPath(binding) == "/sql" ==> Contains(binding, "\r\n\r\n"))
  }

  /** The routing of `handle_request`: `/` to `index`, `/sql` to `db_handler`, anything else to `unknown_path`. */
  function Route(binding: string, date: string): (r: Responses.HttpResponse)
    requires Answerable(binding)
    ensures IsHtmlPage(r, date)
  {
    match RequestPath(binding)
    case "/" => Index(date)
    case "/sql" => DbHandler(binding, date)
    case _ => UnknownPath(date)
  }

  /** `handle_request`: the text handed to `stream.write` for the bytes one read delivered. */
  function HandleRequest(received: string, date: string): (wire: string)
    requires Answerable(RequestText(received))
    ensures var binding := RequestText(received);
      var (statusCode, content) := Expected(RequestMethod(binding), RequestPath(binding));
      wire ==
        "HTTP/1.1 " + Decimal(statusCode) + "\r\n"
        + Headers.Line(Headers.ContentType, "text/html") + Headers.Line(Headers.Date, date)
        + "\r\n\r\n" + content
  {
    var binding := RequestText(received);
    var (statusCode, content) := Expected(RequestMethod(binding), RequestPath(binding));
    RouteFollowsTable(binding, date);
    assert Route(binding, date) == Page(statusCode, content, date);
    PageOnTheWire(statusCode, content, date);
    Responses.ToString(Route(binding, date))
  }

  /** `dummy_response` (not called anywhere): 200 with `<path> - <verb> - 200`. */
  function DummyResponse(path: string, verb: string, date: string): (r: Responses.HttpResponse)
    ensures IsHtmlPage(r, date) && r.statusCode == 200
    ensures r.content == path + " - " + verb + " - 200"
  {
    Responses.DecimalOfStatus200();
    Page(200, path + " - " + verb + " - " + Decimal(200), date)
  }

  // ---------------------------------------------------------------------
  // Properties
  // ---------------------------------------------------------------------

  /** The reference routing table: status and content by path and verb. */
  function Expected(verb: string, path: string): (Responses.U16, string) {
    if path == "/" then (200, IndexContent)
    else if path != "/sql" then (404, NotFoundContent)
    else if verb == "GET" || verb == "POST" then (200, DatabaseStubContent)
    else (405, MethodNotAllowedContent)
  }

  /** Every answerable request gets the table's status and content, in an HTML page over HTTP/1.1. */
  lemma RouteFollowsTable(binding: string, date: string)
    requires Answerable(binding)
    ensures var r := Route(binding, date);
      IsHtmlPage(r, date)
      && (r.statusCode, r.content) == Expected(RequestMethod(binding), RequestPath(binding))
  {
  }

  /**
    Header and body are what they look like: for `h \r\n\r\n b rest`, where
    no `\r\n\r\n` starts inside `h` or inside `b` (not even one running on
    into the separator after it) and `rest` is empty or starts with another
    separator, the header is `h` and the body is `b`.
   */
  lemma HeaderAndBodyOf(h: string, b: string, rest: string)
    requires !Contains(h + "\r\n\r", "\r\n\r\n") && !Contains(b + "\r\n\r", "\r\n\r\n")
    requires rest == "" || (|rest| >= 4 && rest[..4] == "\r\n\r\n")
    ensures Contains(h + "\r\n\r\n" + b + rest, "\r\n\r\n")
    ensures RequestHeader(h + "\r\n\r\n" + b + rest) == h
    ensures RequestBody(h + "\r\n\r\n" + b + rest) == b
  {
    var sep := "\r\n\r\n";
    assert sep[..|sep| - 1] == "\r\n\r";
    var s := h + sep + b + rest;
    assert s == h + sep + (b + rest);
    NoMatchStartsInside(h, sep, b + rest);
    SplitCons(h, sep, b + rest);
    assert MatchesAt(s, sep, |h|) by {
      assert s[|h|..|h| + 4] == sep;
    }
    if rest == "" {
      assert b + rest == b;
      NotContainsInPrefix(b, "\r\n\r", sep);
      assert Split(b, sep) == [b];
    } else {
      assert b + rest == b + sep + rest[4..];
      NoMatchStartsInside(b, sep, rest[4..]);
      SplitCons(b, sep, rest[4..]);
    }
  }

  /**
    A request of two CRLF-terminated lines, such as `GET / HTTP/1.1\r\nHost: x\r\n`,
    then the blank line and a body: the header is the two lines without the
    final line break, although an occurrence of `\r\n\r\n` overlapping
    the separator starts at the second line's own `\r\n` as well.
   */
  lemma HeaderOfTwoLineRequest(line1: string, line2: string, b: string)
    requires '\r' !in line1 && '\r' !in line2 && |line2| > 0 && '\r' !in b
    ensures RequestHeader(line1 + "\r\n" + line2 + "\r\n\r\n" + b) == line1 + "\r\n" + line2
    ensures RequestBody(line1 + "\r\n" + line2 + "\r\n\r\n" + b) == b
  {
    var h := line1 + "\r\n" + line2;
    NoSeparatorInCrlfLines(line1, line2);
    NoSeparatorWithoutCr(b);
    HeaderAndBodyOf(h, b, "");
    assert h + "\r\n\r\n" + b + "" == line1 + "\r\n" + line2 + "\r\n\r\n" + b;
  }

  /** A separator needs a carriage return at its start and two places further on. */
  lemma SeparatorNeedsTwoCr(u: string, j: nat)
    ensures MatchesAt(u, "\r\n\r\n", j) ==> j + 4 <= |u| && u[j] == '\r' && u[j + 2] == '\r'
  {
    if j + 4 <= |u| {
      assert u[j..j + 4][0] == u[j] && u[j..j + 4][2] == u[j + 2];
    }
  }

  /** Two lines free of carriage returns, joined and followed by `\r\n\r`, hold no separator. */
  lemma NoSeparatorInCrlfLines(line1: string, line2: string)
    requires '\r' !in line1 && '\r' !in line2 && |line2| > 0
    ensures !Contains(line1 + "\r\n" + line2 + "\r\n\r", "\r\n\r\n")
  {
    var u := line1 + "\r\n" + line2 + "\r\n\r";
    forall j: nat | j <= |u|
      ensures !MatchesAt(u, "\r\n\r\n", j)
    {
      SeparatorNeedsTwoCr(u, j);
      if j < |line1| {
        assert u[j] == line1[j];
      } else if j == |line1| {
        assert j + 2 < |u| && u[j + 2] == line2[0];
      } else if j == |line1| + 1 {
        assert u[j] == '\n';
      } else if j < |line1| + 2 + |line2| {
        assert u[j] == line2[j - |line1| - 2];
      }
    }
  }

  /** A text free of carriage returns, followed by `\r\n\r`, holds no separator. */
  lemma NoSeparatorWithoutCr(b: string)
    requires '\r' !in b
    ensures !Contains(b + "\r\n\r", "\r\n\r\n")
  {
    forall j: nat | j <= |b| + 3
      ensures !MatchesAt(b + "\r\n\r", "\r\n\r\n", j)
    {
      SeparatorNeedsTwoCr(b + "\r\n\r", j);
      if j < |b| {
        assert (b + "\r\n\r")[j] == b[j];
      }
    }
  }

  /** Tokens are what they look like: for `m p rest` with no space in `m` or `p`, the verb is `m` and the path is `p`. */
  lemma TokensOf(m: string, p: string, rest: string)
    requires ' ' !in m && ' ' !in p
    ensures Contains(m + " " + p + rest, " ")
    ensures RequestMethod(m + " " + p + rest) == m
    ensures rest == "" || rest[0] == ' ' ==> RequestPath(m + " " + p + rest) == p
  {
    var s := m + " " + p + rest;
    FirstCharNoEarlierMatch(m, " ", p + rest);
    assert s == m + [' '] + (p + rest);
    SplitCons(m, " ", p + rest);
    assert MatchesAt(s, " ", |m|) by {
      assert s[|m|..|m| + 1] == " ";
    }
    if rest == "" {
      SplitWithoutFirstChar(p, " ");
      assert p + rest == p;
    } else if rest[0] == ' ' {
      FirstCharNoEarlierMatch(p, " ", rest[1..]);
      assert p + rest == p + [' '] + rest[1..];
      SplitCons(p, " ", rest[1..]);
    }
  }

  /** Only the verb and the path matter: two requests that agree on both get the same response. */
  lemma RouteIgnoresHeaderAndBody(b1: string, b2: string, date: string)
    requires Answerable(b1) && Answerable(b2)
    requires RequestMethod(b1) == RequestMethod(b2) && RequestPath(b1) == RequestPath(b2)
    ensures Route(b1, date) == Route(b2, date)
  {
    RouteFollowsTable(b1, date);
    RouteFollowsTable(b2, date);
  }

  /** `/` answers with the greeting whatever the verb. */
  lemma IndexForEveryMethod(m: string, rest: string, date: string)
    requires ' ' !in m && (rest == "" || rest[0] == ' ')
    ensures Answerable(m + " /" + rest)
    ensures Route(m + " /" + rest, date) == Index(date)
  {
    assert m + " /" + rest == m + " " + "/" + rest;
    TokensOf(m, "/", rest);
  }

  /** A path that merely starts with `/sql`, such as `/sql?x`, is unknown. */
  lemma SqlWithQueryIsUnknown(m: string, query: string, rest: string, date: string)
    requires ' ' !in m && ' ' !in query && |query| > 0 && (rest == "" || rest[0] == ' ')
    ensures Answerable(m + " " + ("/sql" + query) + rest)
    ensures Route(m + " " + ("/sql" + query) + rest, date) == UnknownPath(date)
  {
    TokensOf(m, "/sql" + query, rest);
  }

  /** On `/sql`, GET and POST get the same stub answer, other methods 405. */
  lemma SqlByMethod(m: string, rest: string, date: string)
    requires ' ' !in m && |rest| > 0 && rest[0] == ' ' && Contains(rest, "\r\n\r\n")
    ensures Answerable(m + " /sql" + rest)
    ensures m == "GET" || m == "POST" ==> Route(m + " /sql" + rest, date) == Page(200, DatabaseStubContent, date)
    ensures m != "GET" && m != "POST" ==> Route(m + " /sql" + rest, date) == UnsupportedMethod(date)
  {
    var s := m + " /sql" + rest;
    assert s == m + " " + "/sql" + rest;
    TokensOf(m, "/sql", rest);
    ContainsInSuffix(m + " /sql", rest, "\r\n\r\n");
    RouteFollowsTable(s, date);
  }

  /**
    A request line cut short after the path, as in `GET /` with nothing
    after it, leaves the NUL padding of the buffer in the path token, so
    even `/` is answered 404.
   */
  lemma PaddingStaysInThePath(m: string, p: string, date: string)
    requires ' ' !in m && ' ' !in p && |m| + 1 + |p| < BufferSize
    ensures var binding := RequestText(m + " " + p);
      && Answerable(binding)
      && RequestPath(binding) == p + seq(BufferSize - |m| - 1 - |p|, _ => '\0')
      && Route(binding, date) == UnknownPath(date)
  {
    var received := m + " " + p;
    var pad := seq(BufferSize - |received|, _ => '\0');
    var binding := RequestText(received);
    assert binding == m + " " + (p + pad);
    assert ' ' !in p + pad;
    TokensOf(m, p + pad, "");
    assert m + " " + (p + pad) + "" == binding;
    assert (p + pad)[|p|] == '\0';
  }

  /** `dummy_response`'s content splits on ` - ` back into the path, the verb and `200`. */
  lemma DummyContentReadsBack(path: string, verb: string, date: string)
    requires ' ' !in path && ' ' !in verb
    ensures Split(DummyResponse(path, verb, date).content, " - ") == [path, verb, "200"]
  {
    var code := Decimal(200);
    assert ' ' !in code by {
      forall i | 0 <= i < |code|
        ensures code[i] != ' '
      {
        assert IsDigit(code[i]);
      }
    }
    var sep := " - ";
    assert path + " - " + verb + " - " + code == path + sep + (verb + sep + code);
    FirstCharNoEarlierMatch(path, sep, verb + sep + code);
    SplitCons(path, sep, verb + sep + code);
    FirstCharNoEarlierMatch(verb, sep, code);
    SplitCons(verb, sep, code);
    SplitWithoutFirstChar(code, sep);
    Responses.DecimalOfStatus200();
  }

  /** Every handler's answer on the wire: status line, Content-Type and Date lines, the separator, the content. */
  lemma PageOnTheWire(statusCode: Responses.U16, content: string, date: string)
    ensures Responses.ToString(Page(statusCode, content, date)) ==
      "HTTP/1.1 " + Decimal(statusCode) + "\r\n"
      + Headers.Line(Headers.ContentType, "text/html") + Headers.Line(Headers.Date, date)
      + "\r\n\r\n" + content
  {
    Headers.SerializeNewWithContentType(date, "text/html");
  }
}

=== FILE: http_header.dfy ===
/**
  The response header record of `src/http_header.rs`. The Rust struct has
  41 `Option<String>` fields; here a header is a map from the field's name
  to its value, and a field is `None` exactly when its name is not a key.
  `Display` writes one `Name: value\r\n` line per populated field, in a
  fixed order (`EmitOrder`) that follows the struct except that `Upgrade`
  comes before `User-Agent`.
 */
module Headers {
  import opened Wrappers
  import opened Text

  /** The 41 fields, in the order the struct declares them. */
  datatype HeaderName =
    | AIm | Accept | AcceptCharset | AcceptDatetime | AcceptEncoding | AcceptLanguage
    | AcceptControlRequestHeaders | AcceptControlRequestMethod | Authorization | CacheControl
    | Connection | ContentEncoding | ContentLength | ContentMd5 | ContentType | Cookie | Date
    | Expect | Forwarded | From | Host | Http2Settings | IfMatch | IfModifiedSince | IfNoneMatch
    | IfRange | IfUnmodifiedSince | MaxForwards | Origin | Pragma | Prefer | ProxyAuthorization
    | Range | Referer | Te | Trailer | TransferEncoding | UserAgent | Upgrade | Via | Warning

  datatype HttpHeader = HttpHeader(fields: map<HeaderName, string>)

  /** The name each field is written under. */
  function Name(f: HeaderName): string {
    match f
    case AIm => "A-IM"
    case Accept => "Accept"
    case AcceptCharset => "Accept-Charset"
    case AcceptDatetime => "Accept-Datetime"
    case AcceptEncoding => "Accept-Encoding"
    case AcceptLanguage => "Accept-Language"
    case AcceptControlRequestHeaders => "Accept-Control-Request-Headers"
    case AcceptControlRequestMethod => "Accept-Control-Request-Method"
    case Authorization => "Authorization"
    case CacheControl => "Cache-Control"
    case Connection => "Connection"
    case ContentEncoding => "Content-Encoding"
    case ContentLength => "Content-Length"
    case ContentMd5 => "Content-MD5"
    case ContentType => "Content-Type"
    case Cookie => "Cookie"
    case Date => "Date"
    case Expect => "Expect"
    case Forwarded => "Forwarded"
    case From => "From"
    case Host => "Host"
    case Http2Settings => "HTTP2-Settings"
    case IfMatch => "If-Match"
    case IfModifiedSince => "If-Modified-Since"
    case IfNoneMatch => "If-None-Match"
    case IfRange => "If-Range"
    case IfUnmodifiedSince => "If-Unmodified-Since"
    case MaxForwards => "Max-Forwards"
    case Origin => "Origin"
    case Pragma => "Pragma"
    case Prefer => "Prefer"
    case ProxyAuthorization => "Proxy-Authorization"
    case Range => "Range"
    case Referer => "Referer"
    case Te => "TE"
    case Trailer => "Trailer"
    case TransferEncoding => "Transfer-Encoding"
    case UserAgent => "User-Agent"
    case Upgrade => "Upgrade"
    case Via => "Via"
    case Warning => "Warning"
  }

  /** The field a written name stands for; the inverse of `Name`. Dispatches on the first letter. */
  function FieldNamed(name: string): Option<HeaderName> {
    if |name| == 0 then None
    else match name[0]
      case 'A' =>
        (match name
        case "A-IM" => Some(AIm)
        case "Accept" => Some(Accept)
        case "Accept-Charset" => Some(AcceptCharset)
        case "Accept-Datetime" => Some(AcceptDatetime)
        case "Accept-Encoding" => Some(AcceptEncoding)
        case "Accept-Language" => Some(AcceptLanguage)
        case "Accept-Control-Request-Headers" => Some(AcceptControlRequestHeaders)
        case "Accept-Control-Request-Method" => Some(AcceptControlRequestMethod)
        case "Authorization" => Some(Authorization)
        case _ => None)
      case 'C' =>
        (match name
        case "Cache-Control" => Some(CacheControl)
        case "Connection" => Some(Connection)
        case "Content-Encoding" => Some(ContentEncoding)
        case "Content-Length" => Some(ContentLength)
        case "Content-MD5" => Some(ContentMd5)
        case "Content-Type" => Some(ContentType)
        case "Cookie" => Some(Cookie)
        case _ => None)
      case 'D' =>
        (match name
        case "Date" => Some(Date)
        case _ => None)
      case 'E' =>
        (match name
        case "Expect" => Some(Expect)
        case _ => None)
      case 'F' =>
        (match name
        case "Forwarded" => Some(Forwarded)
        case "From" => Some(From)
        case _ => None)
      case 'H' =>
        (match name
        case "Host" => Some(Host)
        case "HTTP2-Settings" => Some(Http2Settings)
        case _ => None)
      case 'I' =>
        (match name
        case "If-Match" => Some(IfMatch)
        case "If-Modified-Since" => Some(IfModifiedSince)
        case "If-None-Match" => Some(IfNoneMatch)
        case "If-Range" => Some(IfRange)
        case "If-Unmodified-Since" => Some(IfUnmodifiedSince)
        case _ => None)
      case 'M' =>
        (match name
        case "Max-Forwards" => Some(MaxForwards)
        case _ => None)
      case 'O' =>
        (match name
        case "Origin" => Some(Origin)
        case _ => None)
      case 'P' =>
        (match name
        case "Pragma" => Some(Pragma)
        case "Prefer" => Some(Prefer)
        case "Proxy-Authorization" => Some(ProxyAuthorization)
        case _ => None)
      case 'R' =>
        (match name
        case "Range" => Some(Range)
        case "Referer" => Some(Referer)
        case _ => None)
      case 'T' =>
        (match name
        case "TE" => Some(Te)
        case "Trailer" => Some(Trailer)
        case "Transfer-Encoding" => Some(TransferEncoding)
        case _ => None)
      case 'U' =>
        (match name
        case "User-Agent" => Some(UserAgent)
        case "Upgrade" => Some(Upgrade)
        case _ => None)
      case 'V' =>
        (match name
        case "Via" => Some(Via)
        case _ => None)
      case 'W' =>
        (match name
        case "Warning" => Some(Warning)
        case _ => None)
      case _ => None
  }

  lemma NameRoundTrip(f: HeaderName)
    ensures FieldNamed(Name(f)) == Some(f)
  {
    if Rank(f) < 20 {
      NameRoundTripBelow20(f);
    } else {
      NameRoundTripFrom20(f);
    }
  }

  lemma NameRoundTripBelow20(f: HeaderName)
    requires Rank(f) < 20
    ensures FieldNamed(Name(f)) == Some(f)
  {
  }

  lemma NameRoundTripFrom20(f: HeaderName)
    requires Rank(f) >= 20
    ensures FieldNamed(Name(f)) == Some(f)
  {
  }

  /** A character of an HTTP field-name token as the names here use them: a letter, a digit or `-`. */
  predicate IsTokenChar(c: char) {
    'A' <= c <= 'Z' || 'a' <= c <= 'z' || '0' <= c <= '9' || c == '-'
  }

  /** A written name is a non-empty run of token characters; in particular it holds neither `:` nor a carriage return. */
  predicate IsFieldName(n: string) {
    |n| > 0 && forall i :: 0 <= i < |n| ==> IsTokenChar(n[i])
  }

  /** Every field's name is a well-formed field name that reads back as that field. */
  lemma NameFacts(f: HeaderName)
    ensures FieldNamed(Name(f)) == Some(f)
    ensures IsFieldName(Name(f))
  {
    NameRoundTrip(f);
    if Rank(f) < 5 {
      NameIsToken0(f);
    } else if Rank(f) < 7 {
      NameIsToken5(f);
    } else if Rank(f) < 10 {
      NameIsToken7(f);
    } else if Rank(f) < 14 {
      NameIsToken10(f);
    } else if Rank(f) < 22 {
      NameIsToken14(f);
    } else if Rank(f) < 26 {
      NameIsToken22(f);
    } else if Rank(f) < 31 {
      NameIsToken26(f);
    } else if Rank(f) < 37 {
      NameIsToken31(f);
    } else {
      NameIsToken37(f);
    }
  }

  // The name checks are split by position so that each proof stays small.
  lemma NameIsToken0(f: HeaderName)
    requires 0 <= Rank(f) < 5
    ensures IsFieldName(Name(f))
  {
  }

  lemma NameIsToken5(f: HeaderName)
    requires 5 <= Rank(f) < 7
    ensures IsFieldName(Name(f))
  {
  }

  lemma NameIsToken7(f: HeaderName)
    requires 7 <= Rank(f) < 10
    ensures IsFieldName(Name(f))
  {
  }

  lemma NameIsToken10(f: HeaderName)
    requires 10 <= Rank(f) < 14
    ensures IsFieldName(Name(f))
  {
  }

  lemma NameIsToken14(f: HeaderName)
    requires 14 <= Rank(f) < 22
    ensures IsFieldName(Name(f))
  {
  }

  lemma NameIsToken22(f: HeaderName)
    requires 22 <= Rank(f) < 26
    ensures IsFieldName(Name(f))
  {
  }

  lemma NameIsToken26(f: HeaderName)
    requires 26 <= Rank(f) < 31
    ensures IsFieldName(Name(f))
  {
  }

  lemma NameIsToken31(f: HeaderName)
    requires 31 <= Rank(f) < 37
    ensures IsFieldName(Name(f))
  {
  }

  lemma NameIsToken37(f: HeaderName)
    requires 37 <= Rank(f) < 41
    ensures IsFieldName(Name(f))
  {
  }

  /** The field written at position `i` of `Display`'s output order (positions past the end repeat the last). */
  function FieldAt(i: int): HeaderName {
    match i
    case 0 => AIm
    case 1 => Accept
    case 2 => AcceptCharset
    case 3 => AcceptDatetime
    case 4 => AcceptEncoding
    case 5 => AcceptLanguage
    case 6 => AcceptControlRequestHeaders
    case 7 => AcceptControlRequestMethod
    case 8 => Authorization
    case 9 => CacheControl
    case 10 => Connection
    case 11 => ContentEncoding
    case 12 => ContentLength
    case 13 => ContentMd5
    case 14 => ContentType
    case 15 => Cookie
    case 16 => Date
    case 17 => Expect
    case 18 => Forwarded
    case 19 => From
    case 20 => Host
    case 21 => Http2Settings
    case 22 => IfMatch
    case 23 => IfModifiedSince
    case 24 => IfNoneMatch
    case 25 => IfRange
    case 26 => IfUnmodifiedSince
    case 27 => MaxForwards
    case 28 => Origin
    case 29 => Pragma
    case 30 => Prefer
    case 31 => ProxyAuthorization
    case 32 => Range
    case 33 => Referer
    case 34 => Te
    case 35 => Trailer
    case 36 => TransferEncoding
    case 37 => Upgrade
    case 38 => UserAgent
    case 39 => Via
    case _ => Warning
  }

  /** The order in which `Display` writes the fields. */
  function EmitOrder(): seq<HeaderName> {
    seq(41, FieldAt)
  }

  /** A field's position in `EmitOrder`. */
  function Rank(f: HeaderName): nat {
    match f
    case AIm => 0
    case Accept => 1
    case AcceptCharset => 2
    case AcceptDatetime => 3
    case AcceptEncoding => 4
    case AcceptLanguage => 5
    case AcceptControlRequestHeaders => 6
    case AcceptControlRequestMethod => 7
    case Authorization => 8
    case CacheControl => 9
    case Connection => 10
    case ContentEncoding => 11
    case ContentLength => 12
    case ContentMd5 => 13
    case ContentType => 14
    case Cookie => 15
    case Date => 16
    case Expect => 17
    case Forwarded => 18
    case From => 19
    case Host => 20
    case Http2Settings => 21
    case IfMatch => 22
    case IfModifiedSince => 23
    case IfNoneMatch => 24
    case IfRange => 25
    case IfUnmodifiedSince => 26
    case MaxForwards => 27
    case Origin => 28
    case Pragma => 29
    case Prefer => 30
    case ProxyAuthorization => 31
    case Range => 32
    case Referer => 33
    case Te => 34
    case Trailer => 35
    case TransferEncoding => 36
    case Upgrade => 37
    case UserAgent => 38
    case Via => 39
    case Warning => 40
  }

  /** `EmitOrder` lists every field exactly once, each at its `Rank`. */
  lemma EmitOrderIsRanked()
    ensures |EmitOrder()| == 41
    ensures forall f: HeaderName :: Rank(f) < 41 && EmitOrder()[Rank(f)] == f
    ensures forall i :: 0 <= i < 41 ==> Rank(EmitOrder()[i]) == i
  {
    forall f: HeaderName
      ensures Rank(f) < 41 && EmitOrder()[Rank(f)] == f
    {
      FieldAtRank(f);
    }
    forall i | 0 <= i < 41
      ensures Rank(EmitOrder()[i]) == i
    {
      RankOfFieldAt(i);
    }
  }

  lemma FieldAtRank(f: HeaderName)
    ensures Rank(f) < 41 && FieldAt(Rank(f)) == f
  {
    if Rank(f) < 20 {
      FieldAtRankBelow20(f);
    } else {
      FieldAtRankFrom20(f);
    }
  }

  lemma FieldAtRankBelow20(f: HeaderName)
    requires Rank(f) < 20
    ensures FieldAt(Rank(f)) == f
  {
  }

  lemma FieldAtRankFrom20(f: HeaderName)
    requires Rank(f) >= 20
    ensures Rank(f) < 41 && FieldAt(Rank(f)) == f
  {
  }

  lemma RankOfFieldAt(i: int)
    requires 0 <= i < 41
    ensures Rank(FieldAt(i)) == i
  {
  }

  /** `HttpHeader::new()`: only `Date` is set, to the current HTTP date (a parameter here). */
  function New(date: string): (h: HttpHeader)
    ensures h.fields.Keys == {Date} && h.fields[Date] == date
  {
    HttpHeader(map[Date := date])
  }

  /** `with_content_type`: sets `Content-Type` and keeps every other field. */
  function WithContentType(h: HttpHeader, contentType: string): (h': HttpHeader)
    ensures h'.fields.Keys == h.fields.Keys + {ContentType}
    ensures h'.fields[ContentType] == contentType
    ensures forall f :: f in h.fields && f != ContentType ==> h'.fields[f] == h.fields[f]
  {
    HttpHeader(h.fields[ContentType := contentType])
  }

  /** One written line. */
  function Line(f: HeaderName, value: string): string {
    Name(f) + ": " + value + "\r\n"
  }

  /** The lines of the populated fields among `fs`, in the order of `fs`. */
  function Lines(h: HttpHeader, fs: seq<HeaderName>): string {
    if |fs| == 0 then ""
    else (if fs[0] in h.fields then Line(fs[0], h.fields[fs[0]]) else "") + Lines(h, fs[1..])
  }

  /**
    `Display::fmt`: the lines of all populated fields in `EmitOrder`. Every
    populated field's line appears, and only a header with no field set
    writes nothing.
   */
  function Serialize(h: HttpHeader): (r: string)
    ensures forall f {:trigger FieldLine(h, f)} :: f in h.fields ==> Contains(r, FieldLine(h, f))
    ensures r == "" <==> |h.fields| == 0
  {
    LinesHaveEveryField(h);
    Lines(h, EmitOrder())
  }

  /** Every populated field listed in `fs` has its line among `Lines(h, fs)`. */
  lemma {:induction false} LinesContain(h: HttpHeader, fs: seq<HeaderName>, f: HeaderName)
    requires f in fs && f in h.fields
    ensures Contains(Lines(h, fs), Line(f, h.fields[f]))
  {
    var first := if fs[0] in h.fields then Line(fs[0], h.fields[fs[0]]) else "";
    if fs[0] == f {
      ContainsPrefix(Line(f, h.fields[f]), Lines(h, fs[1..]));
    } else {
      assert f in fs[1..] by {
        var i :| 0 <= i < |fs| && fs[i] == f;
        assert fs[1..][i - 1] == f;
      }
      LinesContain(h, fs[1..], f);
      ContainsInSuffix(first, Lines(h, fs[1..]), Line(f, h.fields[f]));
    }
  }

  /** The line a populated field of `h` is written as. */
  function FieldLine(h: HttpHeader, f: HeaderName): string
    requires f in h.fields
  {
    Line(f, h.fields[f])
  }

  lemma LinesHaveEveryField(h: HttpHeader)
    ensures forall f :: f in h.fields ==> Contains(Lines(h, EmitOrder()), FieldLine(h, f))
    ensures |h.fields| == 0 ==> Lines(h, EmitOrder()) == ""
  {
    if |h.fields| == 0 {
      LinesOfAbsent(h, EmitOrder());
    }
    EmitOrderIsRanked();
    forall f | f in h.fields
      ensures Contains(Lines(h, EmitOrder()), FieldLine(h, f))
    {
      assert EmitOrder()[Rank(f)] == f;
      LinesContain(h, EmitOrder(), f);
    }
  }

  lemma {:induction false} LinesAppend(h: HttpHeader, fs: seq<HeaderName>, gs: seq<HeaderName>)
    ensures Lines(h, fs + gs) == Lines(h, fs) + Lines(h, gs)
  {
    if |fs| > 0 {
      assert (fs + gs)[1..] == fs[1..] + gs;
      LinesAppend(h, fs[1..], gs);
    } else {
      assert fs + gs == gs;
    }
  }

  /** Fields that are all absent contribute nothing. */
  lemma {:induction false} LinesOfAbsent(h: HttpHeader, fs: seq<HeaderName>)
    requires forall i :: 0 <= i < |fs| ==> fs[i] !in h.fields
    ensures Lines(h, fs) == ""
  {
    if |fs| > 0 {
      LinesOfAbsent(h, fs[1..]);
    }
  }

  /** A header with every field `None` writes nothing at all. */
  lemma SerializeEmpty()
    ensures Serialize(HttpHeader(map[])) == ""
  {
    LinesOfAbsent(HttpHeader(map[]), EmitOrder());
  }

  /** The fields of `fs` that `h` populates, in the order of `fs`. */
  function Populated(h: HttpHeader, fs: seq<HeaderName>): seq<HeaderName> {
    if |fs| == 0 then []
    else (if fs[0] in h.fields then [fs[0]] else []) + Populated(h, fs[1..])
  }

  /** The concatenated lines of the fields `ps`, each of which is populated. */
  function LinesOf(h: HttpHeader, ps: seq<HeaderName>): string
    requires forall i :: 0 <= i < |ps| ==> ps[i] in h.fields
  {
    if |ps| == 0 then "" else Line(ps[0], h.fields[ps[0]]) + LinesOf(h, ps[1..])
  }

  /** `fs` lists fields in strictly increasing `key` order. */
  predicate StrictlyBy(fs: seq<HeaderName>, key: HeaderName -> nat) {
    forall i, j :: 0 <= i < j < |fs| ==> key(fs[i]) < key(fs[j])
  }

  predicate StrictlyRanked(fs: seq<HeaderName>) {
    StrictlyBy(fs, Rank)
  }

  lemma {:induction false} PopulatedMembers(h: HttpHeader, fs: seq<HeaderName>)
    ensures forall i :: 0 <= i < |Populated(h, fs)| ==> Populated(h, fs)[i] in h.fields
    ensures forall f :: f in Populated(h, fs) <==> f in fs && f in h.fields
  {
    if |fs| > 0 {
      PopulatedMembers(h, fs[1..]);
      assert fs == [fs[0]] + fs[1..];
    }
  }

  lemma {:induction false} PopulatedKeepsOrder(h: HttpHeader, fs: seq<HeaderName>, key: HeaderName -> nat)
    requires StrictlyBy(fs, key)
    ensures StrictlyBy(Populated(h, fs), key)
  {
    if |fs| > 0 {
      var rest := Populated(h, fs[1..]);
      PopulatedKeepsOrder(h, fs[1..], key);
      PopulatedMembers(h, fs[1..]);
      if fs[0] in h.fields {
        var p := [fs[0]] + rest;
        assert p[1..] == rest;
        forall j | 0 < j < |p|
          ensures key(p[0]) < key(p[j])
        {
          assert p[j] in fs[1..];
        }
      }
    }
  }

  lemma {:induction false} LinesArePopulatedLines(h: HttpHeader, fs: seq<HeaderName>)
    ensures forall i :: 0 <= i < |Populated(h, fs)| ==> Populated(h, fs)[i] in h.fields
    ensures Lines(h, fs) == LinesOf(h, Populated(h, fs))
  {
    PopulatedMembers(h, fs);
    if |fs| > 0 {
      LinesArePopulatedLines(h, fs[1..]);
      var p := Populated(h, fs);
      if fs[0] in h.fields {
        assert p == [fs[0]] + Populated(h, fs[1..]);
        assert p[0] == fs[0] && p[1..] == Populated(h, fs[1..]);
      } else {
        assert p == Populated(h, fs[1..]);
      }
    }
  }

  /**
    The serialisation is exactly one `Name: value\r\n` line for each populated
    field and for no other, each field once, in strictly increasing `EmitOrder`
    position.
   */
  lemma SerializeIsOneLinePerField(h: HttpHeader)
    ensures var ps := Populated(h, EmitOrder());
      && (forall f :: f in ps <==> f in h.fields)
      && StrictlyRanked(ps)
      && (forall i :: 0 <= i < |ps| ==> ps[i] in h.fields)
      && Serialize(h) == LinesOf(h, ps)
  {
    EmitOrderIsRanked();
    assert StrictlyRanked(EmitOrder());
    PopulatedMembers(h, EmitOrder());
    PopulatedKeepsOrder(h, EmitOrder(), Rank);
    LinesArePopulatedLines(h, EmitOrder());
    forall f | f in h.fields
      ensures f in EmitOrder()
    {
      assert EmitOrder()[Rank(f)] == f;
    }
  }

  /** `Upgrade` is written before `User-Agent`, though the struct declares them the other way round. */
  lemma UpgradeBeforeUserAgent()
    ensures Rank(Upgrade) < Rank(UserAgent)
    ensures EmitOrder()[37] == Upgrade && EmitOrder()[38] == UserAgent
  {
  }

  /** When `fs[i]` is the only populated field among `fs`, the lines are that field's line. */
  lemma LinesOfSingle(h: HttpHeader, fs: seq<HeaderName>, i: nat)
    requires i < |fs| && fs[i] in h.fields
    requires forall k :: 0 <= k < |fs| && k != i ==> fs[k] !in h.fields
    ensures Lines(h, fs) == Line(fs[i], h.fields[fs[i]])
  {
    assert fs == fs[..i] + fs[i..];
    LinesAppend(h, fs[..i], fs[i..]);
    LinesOfAbsent(h, fs[..i]);
    assert fs[i..][1..] == fs[i + 1..];
    LinesOfAbsent(h, fs[i + 1..]);
  }

  /** `HttpHeader::new()` writes the Date line alone. */
  lemma SerializeNew(date: string)
    ensures Serialize(New(date)) == Line(Date, date)
  {
    EmitOrderIsRanked();
    LinesOfSingle(New(date), EmitOrder(), 16);
  }

  /** `HttpHeader::new().with_content_type(t)` writes the Content-Type line, then the Date line. */
  lemma SerializeNewWithContentType(date: string, t: string)
    ensures Serialize(WithContentType(New(date), t)) == Line(ContentType, t) + Line(Date, date)
  {
    var h := WithContentType(New(date), t);
    var order := EmitOrder();
    EmitOrderIsRanked();
    assert order == order[..15] + order[15..];
    LinesAppend(h, order[..15], order[15..]);
    assert forall k :: 0 <= k < 15 ==> order[..15][k] == FieldAt(k);
    assert forall k :: 0 <= k < 26 ==> order[15..][k] == FieldAt(k + 15);
    LinesOfSingle(h, order[..15], 14);
    LinesOfSingle(h, order[15..], 1);
  }

  /** A header whose values hold no carriage return, so each written line ends at its own `\r\n`. */
  predicate ValuesAreLineSafe(h: HttpHeader) {
    forall f :: f in h.fields ==> '\r' !in h.fields[f]
  }

  /** Reads one `Name: value` line back into its field and value. */
  function ParseLine(line: string): Option<(HeaderName, string)> {
    match IndexOf(line, ": ")
    case None => None
    case Some(i) =>
      match FieldNamed(line[..i])
      case None => None
      case Some(f) => Some((f, line[i + 2..]))
  }

  /** `t` begins with a line break, i.e. its first line is empty. */
  predicate StartsWithCrlf(t: string) {
    |t| >= 2 && t[..2] == "\r\n"
  }

  /** `t` begins with the `\r\n\r\n` that `HttpResponse::to_string` writes after the header lines. */
  predicate StartsWithBlankLine(t: string) {
    |t| >= 4 && t[..4] == "\r\n\r\n"
  }

  /**
    Reads header lines up to the `\r\n\r\n` that `HttpResponse::to_string`
    places after them, returning the fields and the text that follows.
   */
  function ParseLines(t: string): Option<(map<HeaderName, string>, string)>
    decreases |t|
  {
    if StartsWithBlankLine(t) then Some((map[], t[4..]))
    else match IndexOf(t, "\r\n")
      case None => None
      case Some(k) =>
        match ParseLine(t[..k])
        case None => None
        case Some((f, v)) => AddField(f, v, ParseLines(t[k + 2..]))
  }

  /** Adds one read field to the outcome of reading the lines after it. */
  function AddField(f: HeaderName, v: string, r: Option<(map<HeaderName, string>, string)>): Option<(map<HeaderName, string>, string)> {
    match r
    case None => None
    case Some((m, rest)) => Some((m[f := v], rest))
  }

  /** The populated fields among `fs`. */
  function Restrict(h: HttpHeader, fs: seq<HeaderName>): map<HeaderName, string> {
    map f | f in fs && f in h.fields :: h.fields[f]
  }

  /** One `n: v\r\n` line in front of `rest`: the line ends at its own `\r\n`, and `: ` first occurs after `n`. */
  lemma LineTextSplits(n: string, v: string, rest: string)
    requires IsFieldName(n) && '\r' !in v
    ensures !StartsWithBlankLine(n + ": " + v + "\r\n" + rest)
    ensures !StartsWithCrlf(n + ": " + v + "\r\n" + rest)
    ensures IndexOf(n + ": " + v + "\r\n" + rest, "\r\n") == Some(|n| + 2 + |v|)
    ensures (n + ": " + v + "\r\n" + rest)[..|n| + 2 + |v|] == n + ": " + v
    ensures (n + ": " + v + "\r\n" + rest)[|n| + 2 + |v| + 2..] == rest
    ensures IndexOf(n + ": " + v, ": ") == Some(|n|)
  {
    var body := n + ": " + v;
    var t := body + "\r\n" + rest;
    assert n + ": " + v + "\r\n" + rest == t;
    assert forall i :: 0 <= i < |body| ==> body[i] != '\r' by {
      forall i | 0 <= i < |body|
        ensures body[i] != '\r'
      {
        if i < |n| {
          assert body[i] == n[i];
        } else if i >= |n| + 2 {
          assert body[i] == v[i - |n| - 2];
        }
      }
    }
    IndexAfterPrefix(body, "\r\n", rest);
    assert t[..|body|] == body;
    assert t[|body| + 2..] == rest;
    assert body == n + ": " + v + "";
    IndexAfterPrefix(n, ": ", v);
    assert t[0] == n[0] && IsTokenChar(n[0]);
    assert |t| >= 4 ==> t[..4][0] == t[0];
    assert |t| >= 2 ==> t[..2][0] == t[0];
  }

  /** Reading a line written for field `f` gives back `f` and the value. */
  lemma ParseLineOfLine(n: string, f: HeaderName, v: string)
    requires IsFieldName(n) && FieldNamed(n) == Some(f) && '\r' !in v
    ensures ParseLine(n + ": " + v) == Some((f, v))
  {
    LineTextSplits(n, v, "");
    assert (n + ": " + v)[..|n|] == n;
    assert (n + ": " + v)[|n| + 2..] == v;
  }

  /** The blank line ends the header lines; what follows it is returned untouched. */
  lemma ParseLinesOfBlank(rest: string)
    ensures ParseLines("\r\n\r\n" + rest) == Some((map[], rest))
  {
    assert ("\r\n\r\n" + rest)[..4] == "\r\n\r\n";
    assert ("\r\n\r\n" + rest)[4..] == rest;
  }

  /** One step of `ParseLines`: a text that does not start with the blank line and whose first line parses. */
  lemma ParseLinesStep(t: string, k: nat, line: string, f: HeaderName, v: string)
    requires !StartsWithBlankLine(t)
    requires IndexOf(t, "\r\n") == Some(k)
    requires t[..k] == line && ParseLine(line) == Some((f, v))
    ensures ParseLines(t) == AddField(f, v, ParseLines(t[k + 2..]))
  {
  }

  /** A line `n: v\r\n` in front of more text is read, and the rest is read after it. */
  lemma ParseLinesConsText(n: string, f: HeaderName, v: string, tail: string)
    requires IsFieldName(n) && FieldNamed(n) == Some(f) && '\r' !in v
    ensures ParseLines(n + ": " + v + "\r\n" + tail) == AddField(f, v, ParseLines(tail))
  {
    var t := n + ": " + v + "\r\n" + tail;
    var k := |n| + 2 + |v|;
    LineTextSplits(n, v, tail);
    ParseLineOfLine(n, f, v);
    ParseLinesStep(t, k, n + ": " + v, f, v);
  }

  /** The same for a line as `Display` writes it. */
  lemma ParseLinesCons(f: HeaderName, v: string, tail: string)
    requires '\r' !in v
    ensures ParseLines(Line(f, v) + tail) == AddField(f, v, ParseLines(tail))
  {
    NameFacts(f);
    ParseLinesConsText(Name(f), f, v, tail);
  }

  lemma RestrictCons(h: HttpHeader, fs: seq<HeaderName>)
    requires |fs| > 0
    ensures fs[0] in h.fields ==> Restrict(h, fs) == Restrict(h, fs[1..])[fs[0] := h.fields[fs[0]]]
    ensures fs[0] !in h.fields ==> Restrict(h, fs) == Restrict(h, fs[1..])
  {
    assert forall f :: f in fs <==> f == fs[0] || f in fs[1..] by {
      assert fs == [fs[0]] + fs[1..];
    }
  }

  /** The lines of `fs` are the first field's line (if populated) followed by the lines of the others. */
  lemma LinesConsPresent(h: HttpHeader, fs: seq<HeaderName>, tail: string)
    requires |fs| > 0 && fs[0] in h.fields
    ensures Lines(h, fs) + tail == Line(fs[0], h.fields[fs[0]]) + (Lines(h, fs[1..]) + tail)
  {
    var first := Line(fs[0], h.fields[fs[0]]);
    assert Lines(h, fs) == first + Lines(h, fs[1..]);
    ConcatAssoc(first, Lines(h, fs[1..]), tail);
  }

  lemma LinesConsAbsent(h: HttpHeader, fs: seq<HeaderName>, tail: string)
    requires |fs| > 0 && fs[0] !in h.fields
    ensures Lines(h, fs) + tail == Lines(h, fs[1..]) + tail
  {
    assert Lines(h, fs) == Lines(h, fs[1..]);
  }

  lemma ConcatAssoc(a: string, b: string, c: string)
    ensures a + b + c == a + (b + c)
  {
  }

  /** Parsing the lines of `fs` followed by the blank-line separator recovers the populated fields among `fs`. */
  lemma {:induction false} ParseLinesOfLines(h: HttpHeader, fs: seq<HeaderName>, rest: string)
    requires ValuesAreLineSafe(h)
    ensures ParseLines(Lines(h, fs) + ("\r\n\r\n" + rest)) == Some((Restrict(h, fs), rest))
  {
    var tail := "\r\n\r\n" + rest;
    if |fs| == 0 {
      assert Lines(h, fs) + tail == tail;
      assert Restrict(h, fs) == map[];
      ParseLinesOfBlank(rest);
    } else {
      var f := fs[0];
      ParseLinesOfLines(h, fs[1..], rest);
      RestrictCons(h, fs);
      if f in h.fields {
        LinesConsPresent(h, fs, tail);
        ParseLinesCons(f, h.fields[f], Lines(h, fs[1..]) + tail);
      } else {
        LinesConsAbsent(h, fs, tail);
      }
    }
  }

  /** The serialiser's inverse: the written header, followed by the blank line, reads back as the header itself. */
  lemma ParseSerialize(h: HttpHeader, rest: string)
    requires ValuesAreLineSafe(h)
    ensures ParseLines(Serialize(h) + "\r\n\r\n" + rest) == Some((h.fields, rest))
  {
    ParseLinesOfLines(h, EmitOrder(), rest);
    ConcatAssoc(Serialize(h), "\r\n\r\n", rest);
    EmitOrderIsRanked();
    forall f | f in h.fields
      ensures f in EmitOrder()
    {
      assert EmitOrder()[Rank(f)] == f;
    }
    assert Restrict(h, EmitOrder()) == h.fields;
  }

  /**
    How a generic HTTP/1.1 reader consumes a header section (section 2.1 of
    RFC 9112): field lines, each ended by `\r\n`, up to and including the
    first empty line; the rest is the message body.
   */
  function SkipFieldLines(t: string): Option<string>
    decreases |t|
  {
    if StartsWithCrlf(t) then Some(t[2..])
    else match IndexOf(t, "\r\n")
      case None => None
      case Some(k) => SkipFieldLines(t[k + 2..])
  }

  lemma SkipFieldLinesStep(t: string, k: nat)
    requires !StartsWithCrlf(t)
    requires IndexOf(t, "\r\n") == Some(k)
    ensures SkipFieldLines(t) == SkipFieldLines(t[k + 2..])
  {
  }

  lemma SkipFieldLinesConsText(n: string, v: string, tail: string)
    requires IsFieldName(n) && '\r' !in v
    ensures SkipFieldLines(n + ": " + v + "\r\n" + tail) == SkipFieldLines(tail)
  {
    LineTextSplits(n, v, tail);
    SkipFieldLinesStep(n + ": " + v + "\r\n" + tail, |n| + 2 + |v|);
  }

  lemma SkipFieldLinesCons(f: HeaderName, v: string, tail: string)
    requires '\r' !in v
    ensures SkipFieldLines(Line(f, v) + tail) == SkipFieldLines(tail)
  {
    NameFacts(f);
    SkipFieldLinesConsText(Name(f), v, tail);
  }

  /** A generic reader skips exactly the written lines and the empty line after them. */
  lemma {:induction false} SkipFieldLinesOfLines(h: HttpHeader, fs: seq<HeaderName>, rest: string)
    requires ValuesAreLineSafe(h)
    ensures SkipFieldLines(Lines(h, fs) + ("\r\n" + rest)) == Some(rest)
  {
    var tail := "\r\n" + rest;
    if |fs| == 0 {
      assert Lines(h, fs) + tail == tail;
      assert tail[..2] == "\r\n" && tail[2..] == rest;
    } else {
      var f := fs[0];
      SkipFieldLinesOfLines(h, fs[1..], rest);
      if f in h.fields {
        LinesConsPresent(h, fs, tail);
        SkipFieldLinesCons(f, h.fields[f], Lines(h, fs[1..]) + tail);
      } else {
        LinesConsAbsent(h, fs, tail);
      }
    }
  }
}

=== FILE: http_response.dfy ===
/**
  The response record of `src/http_response.rs` and its wire text. The Rust
  builders take `self` by value, overwrite one field and hand the record
  back; here they return the updated record. `Display` writes exactly what
  `to_string` returns, so both are `ToString`.
 */
module Responses {
  import opened Wrappers
  import opened Text
  import Headers

  /** Rust's `u16`, the type of the status code. */
  type U16 = x: int | 0 <= x < 0x1_0000

  datatype HttpResponse = HttpResponse(protocol: string, statusCode: U16, header: Headers.HttpHeader, content: string)

  /** `HttpResponse::new()`: HTTP/1.1, status 200, a fresh header carrying only the date, no content. */
  function New(date: string): (r: HttpResponse)
    ensures r.protocol == "HTTP/1.1" && r.statusCode == 200 && r.content == ""
    ensures r.header.fields.Keys == {Headers.Date} && r.header.fields[Headers.Date] == date
  {
    HttpResponse("HTTP/1.1", 200, Headers.New(date), "")
  }

  /** `with_content`: replaces the content and keeps the other three fields. */
  function WithContent(r: HttpResponse, content: string): (r': HttpResponse)
    ensures r'.content == content
    ensures r'.protocol == r.protocol && r'.statusCode == r.statusCode && r'.header == r.header
  {
    r.(content := content)
  }

  /** `with_status_code`: replaces the status code and keeps the other three fields. */
  function WithStatusCode(r: HttpResponse, statusCode: U16): (r': HttpResponse)
    ensures r'.statusCode == statusCode
    ensures r'.protocol == r.protocol && r'.header == r.header && r'.content == r.content
  {
    r.(statusCode := statusCode)
  }

  /** `with_protocol`: replaces the protocol and keeps the other three fields. */
  function WithProtocol(r: HttpResponse, protocol: string): (r': HttpResponse)
    ensures r'.protocol == protocol
    ensures r'.statusCode == r.statusCode && r'.header == r.header && r'.content == r.content
  {
    r.(protocol := protocol)
  }

  /** `with_header`: replaces the header and keeps the other three fields. */
  function WithHeader(r: HttpResponse, header: Headers.HttpHeader): (r': HttpResponse)
    ensures r'.header == header
    ensures r'.protocol == r.protocol && r'.statusCode == r.statusCode && r'.content == r.content
  {
    r.(header := header)
  }

  /** The status line: protocol, one space, the decimal status code, a line break. */
  function StatusLine(r: HttpResponse): string {
    r.protocol + " " + Decimal(r.statusCode) + "\r\n"
  }

  /**
    `to_string` (and `Display`): the status line, the header lines, then
    `\r\n\r\n`, then the content. The header lines already end in `\r\n`,
    so one more empty line than HTTP needs sits before the content.
   */
  function ToString(r: HttpResponse): (s: string)
    ensures |s| >= |r.protocol| + 1 && s[..|r.protocol| + 1] == r.protocol + " "
    ensures |s| >= |r.content| && s[|s| - |r.content|..] == r.content
  {
    var s := StatusLine(r) + Headers.Serialize(r.header) + "\r\n\r\n" + r.content;
    assert s == r.protocol + " " + (Decimal(r.statusCode) + "\r\n" + Headers.Serialize(r.header) + "\r\n\r\n" + r.content);
    assert s[..|r.protocol| + 1] == r.protocol + " ";
    s
  }

  /**
    Reads a response back from its wire text: the protocol up to the first
    space, the status code up to the first line break, then the header
    lines up to `\r\n\r\n`, then the content.
   */
  function ParseResponse(s: string): Option<HttpResponse> {
    match IndexOf(s, " ")
    case None => None
    case Some(i) =>
      var afterProtocol := s[i + 1..];
      match IndexOf(afterProtocol, "\r\n")
      case None => None
      case Some(j) =>
        match ParseDecimal(afterProtocol[..j])
        case None => None
        case Some(code) =>
          if code >= 0x1_0000 then None
          else match Headers.ParseLines(afterProtocol[j + 2..])
            case None => None
            case Some((fields, content)) => Some(HttpResponse(s[..i], code, Headers.HttpHeader(fields), content))
  }

  /** The responses the wire text describes unambiguously: no space in the protocol, no carriage return in a header value. */
  predicate Readable(r: HttpResponse) {
    ' ' !in r.protocol && Headers.ValuesAreLineSafe(r.header)
  }

  /** A decimal numeral holds no carriage return. */
  lemma DecimalHasNoCr(n: nat)
    ensures forall k :: 0 <= k < |Decimal(n)| ==> Decimal(n)[k] != '\r'
  {
  }

  /** `ParseResponse` undoes `ToString` on every readable response. */
  lemma ParseToString(r: HttpResponse)
    requires Readable(r)
    ensures ParseResponse(ToString(r)) == Some(r)
  {
    var code := Decimal(r.statusCode);
    var headerText := Headers.Serialize(r.header);
    var afterStatus := headerText + "\r\n\r\n" + r.content;
    var afterProtocol := code + "\r\n" + afterStatus;
    var s := ToString(r);
    assert s == r.protocol + " " + afterProtocol;
    IndexAfterPrefix(r.protocol, " ", afterProtocol);
    assert s[..|r.protocol|] == r.protocol;
    assert s[|r.protocol| + 1..] == afterProtocol;
    DecimalHasNoCr(r.statusCode);
    IndexAfterPrefix(code, "\r\n", afterStatus);
    assert afterProtocol[..|code|] == code;
    assert afterProtocol[|code| + 2..] == afterStatus;
    ParseDecimalOfDecimal(r.statusCode);
    Headers.ParseSerialize(r.header, r.content);
  }

  /** Distinct readable responses have distinct wire texts. */
  lemma ToStringInjective(r: HttpResponse, r': HttpResponse)
    requires Readable(r) && Readable(r')
    requires ToString(r) == ToString(r')
    ensures r == r'
  {
    ParseToString(r);
    ParseToString(r');
  }

  /**
    What a generic HTTP/1.1 reader takes for the body (section 2.1 of
    RFC 9112): the text after the status line and after the header section
    that ends at the first empty line.
   */
  function ClientBody(s: string): Option<string> {
    match IndexOf(s, "\r\n")
    case None => None
    case Some(k) => Headers.SkipFieldLines(s[k + 2..])
  }

  /**
    The extra line break: a generic reader sees the content preceded by
    `\r\n`, because `to_string` writes `\r\n\r\n` after header lines that
    already end in `\r\n`.
   */
  lemma ClientSeesExtraLineBreak(r: HttpResponse)
    requires '\r' !in r.protocol && Headers.ValuesAreLineSafe(r.header)
    ensures ClientBody(ToString(r)) == Some("\r\n" + r.content)
  {
    var firstLine := r.protocol + " " + Decimal(r.statusCode);
    var afterStatus := Headers.Serialize(r.header) + ("\r\n" + ("\r\n" + r.content));
    var s := ToString(r);
    assert s == firstLine + "\r\n" + afterStatus;
    DecimalHasNoCr(r.statusCode);
    assert forall k :: 0 <= k < |firstLine| ==> firstLine[k] != '\r' by {
      forall k | 0 <= k < |firstLine|
        ensures firstLine[k] != '\r'
      {
        if k < |r.protocol| {
          assert firstLine[k] == r.protocol[k];
        } else if k > |r.protocol| {
          assert firstLine[k] == Decimal(r.statusCode)[k - |r.protocol| - 1];
        }
      }
    }
    IndexAfterPrefix(firstLine, "\r\n", afterStatus);
    assert s[|firstLine| + 2..] == afterStatus;
    Headers.SkipFieldLinesOfLines(r.header, Headers.EmitOrder(), "\r\n" + r.content);
  }

  /** `HttpResponse::new()` on the wire: status line `HTTP/1.1 200`, the Date line, the separator, no content. */
  lemma NewOnTheWire(date: string)
    ensures ToString(New(date)) == "HTTP/1.1 200\r\n" + Headers.Line(Headers.Date, date) + "\r\n\r\n"
  {
    Headers.SerializeNew(date);
    DecimalOfStatus200();
  }

  lemma DecimalOfStatus200()
    ensures Decimal(200) == "200"
  {
  }

  /** Setting the content changes only the tail of the wire text. */
  lemma WithContentOnTheWire(r: HttpResponse, content: string)
    ensures ToString(WithContent(r, content)) == ToString(r)[..|ToString(r)| - |r.content|] + content
  {
    var head := StatusLine(r) + Headers.Serialize(r.header) + "\r\n\r\n";
    assert ToString(r) == head + r.content;
    assert ToString(r)[..|ToString(r)| - |r.content|] == head;
  }
}

=== FILE: log_env.dfy ===
/**
  `log_level()` of `src/logger/log.rs`: the configured level, read from the
  `ALVEUS_LOG` environment variable. The process environment is modelled as
  a map from variable name to value; an absent key is an unset variable.
 */
module LogEnv {
  import opened Wrappers
  import opened LogLevels
  import Text

  type Env = map<string, string>

  const LogVar: string := "ALVEUS_LOG"

  /** The configured level: `ALVEUS_LOG` parsed by `from_str`, defaulting to "info" when unset and to `Info` when invalid. */
  function ConfiguredLevel(env: Env): (l: LogLevel)
    ensures LogVar !in env ==> l == Info
    ensures LogVar in env && FromStr(env[LogVar]).Err? ==> l == Info
    ensures LogVar in env && FromStr(env[LogVar]).Ok? ==> l == FromStr(env[LogVar]).value
  {
    var raw := if LogVar in env then env[LogVar] else "info";
    ParsePrinted(Info);
    match FromStr(raw)
    case Ok(level) => level
    case Err(_) => Info
  }

  /** Whatever casing the variable holds, a level's name selects that level, e.g. the `to_string` output. */
  lemma ConfiguredLevelIgnoresCase(env: Env, l: LogLevel)
    requires LogVar in env && Text.Lower(env[LogVar]) == Display(l)
    ensures ConfiguredLevel(env) == l
  {
    FromStrIff(env[LogVar], l);
  }

  /** In particular, holding `ToString(l)` (as `init` writes it) selects `l`. */
  lemma ConfiguredLevelOfToString(env: Env, l: LogLevel)
    requires LogVar in env && env[LogVar] == ToString(l)
    ensures ConfiguredLevel(env) == l
  {
    ParsePrinted(l);
  }
}

=== FILE: log_level.dfy ===
/**
  The six logging severities of `src/logger/log_level.rs`: parsing from text,
  the two printers, the hand-written equality and the hand-written ordering.
 */
module LogLevels {
  import opened Wrappers
  import Text

  datatype LogLevel = Debug | Verbose | Info | Warn | Error | Fatal

  /** Rust's `std::cmp::Ordering`. */
  datatype Ordering = Less | Equal | Greater

  /** The lower-case printer (`impl Display`). */
  function Display(l: LogLevel): (r: string)
    ensures |r| > 0
    ensures forall i :: 0 <= i < |r| ==> 'a' <= r[i] <= 'z'
  {
    match l
    case Debug => "debug"
    case Verbose => "verbose"
    case Info => "info"
    case Warn => "warn"
    case Error => "error"
    case Fatal => "fatal"
  }

  /** The capitalised printer (the inherent `to_string`): the `Display` name with its first letter in upper case. */
  function ToString(l: LogLevel): (r: string)
    ensures |r| == |Display(l)| && 'A' <= r[0] <= 'Z'
    ensures r[1..] == Display(l)[1..]
    ensures Text.Lower(r) == Display(l)
  {
    match l
    case Debug => "Debug"
    case Verbose => "Verbose"
    case Info => "Info"
    case Warn => "Warn"
    case Error => "Error"
    case Fatal => "Fatal"
  }

  /**
    `LogLevel::from_str`: matches the lower-cased input against the six names.
    A level is accepted exactly when the lower-cased input is its `Display`
    name; anything else is rejected with a message quoting the input as given.
   */
  function FromStr(level: string): (r: Result<LogLevel, string>)
    ensures r.Ok? ==> Display(r.value) == Text.Lower(level)
    ensures r.Err? ==> forall l: LogLevel :: Display(l) != Text.Lower(level)
    ensures r.Err? ==> r.error == "Invalid log level: " + level
  {
    match Text.Lower(level)
    case "debug" => Ok(Debug)
    case "verbose" => Ok(Verbose)
    case "info" => Ok(Info)
    case "warn" => Ok(Warn)
    case "error" => Ok(Error)
    case "fatal" => Ok(Fatal)
    case _ => Err("Invalid log level: " + level)
  }

  /** `from_str` accepts `level` as `l` exactly when `level` is `l`'s name in some casing. */
  lemma FromStrIff(level: string, l: LogLevel)
    ensures FromStr(level) == Ok(l) <==> Text.Lower(level) == Display(l)
  {
    match FromStr(level)
    case Ok(m) =>
      assert Display(m) == Text.Lower(level);
      assert Display(l) == Display(m) ==> l == m;
    case Err(_) =>
  }

  /** Reading back either printer's output gives the level printed. */
  lemma ParsePrinted(l: LogLevel)
    ensures FromStr(Display(l)) == Ok(l)
    ensures FromStr(ToString(l)) == Ok(l)
  {
    Text.LowerOfLower(Display(l));
    assert Text.Lower(ToString(l)) == Display(l);
    FromStrIff(Display(l), l);
    FromStrIff(ToString(l), l);
  }

  /** Two strings that agree up to ASCII case parse alike (the error text still quotes each as given). */
  lemma FromStrIgnoresCase(s: string, t: string)
    requires Text.Lower(s) == Text.Lower(t)
    ensures FromStr(s).Ok? <==> FromStr(t).Ok?
    ensures FromStr(s).Ok? ==> FromStr(s) == FromStr(t)
  {
    if FromStr(s).Ok? {
      FromStrIff(t, FromStr(s).value);
    }
  }

  /**
    The hand-written `PartialEq`: it lists the pairs of equal variants but
    leaves out `(Fatal, Fatal)`, which falls to the `false` arm.
   */
  function Eq(a: LogLevel, b: LogLevel): (eq: bool)
    ensures eq <==> a == b && a != Fatal
  {
    match (a, b)
    case (Debug, Debug) => true
    case (Verbose, Verbose) => true
    case (Info, Info) => true
    case (Warn, Warn) => true
    case (Error, Error) => true
    case _ => false
  }

  /**
    The hand-written `PartialOrd::partial_cmp`, arm by arm. It is always
    defined and orders levels by their severity rank.
   */
  function PartialCmp(a: LogLevel, b: LogLevel): (r: Option<Ordering>)
    ensures r == Some(Compare(Rank(a), Rank(b)))
  {
    match (a, b)
    case (Debug, Debug) => Some(Equal)
    case (Debug, Verbose) => Some(Less)
    case (Debug, Info) => Some(Less)
    case (Debug, Warn) => Some(Less)
    case (Debug, Error) => Some(Less)
    case (Verbose, Debug) => Some(Greater)
    case (Verbose, Verbose) => Some(Equal)
    case (Verbose, Info) => Some(Less)
    case (Verbose, Warn) => Some(Less)
    case (Verbose, Error) => Some(Less)
    case (Info, Debug) => Some(Greater)
    case (Info, Verbose) => Some(Greater)
    case (Info, Info) => Some(Equal)
    case (Info, Warn) => Some(Less)
    case (Info, Error) => Some(Less)
    case (Warn, Debug) => Some(Greater)
    case (Warn, Verbose) => Some(Greater)
    case (Warn, Info) => Some(Greater)
    case (Warn, Warn) => Some(Equal)
    case (Warn, Error) => Some(Less)
    case (Error, Debug) => Some(Greater)
    case (Error, Verbose) => Some(Greater)
    case (Error, Info) => Some(Greater)
    case (Error, Warn) => Some(Greater)
    case (Error, Error) => Some(Equal)
    case (Fatal, Fatal) => Some(Equal)
    case (Fatal, _) => Some(Greater)
    case (_, Fatal) => Some(Less)
  }

  /** Rust's `a <= b`, which `PartialOrd` derives from `partial_cmp` (not from `eq`). */
  function Le(a: LogLevel, b: LogLevel): (le: bool)
    ensures le <==> Rank(a) <= Rank(b)
  {
    PartialCmp(a, b) == Some(Less) || PartialCmp(a, b) == Some(Equal)
  }

  /** The intended severity order, as a position: Debug < Verbose < Info < Warn < Error < Fatal. */
  function Rank(l: LogLevel): nat {
    match l
    case Debug => 0
    case Verbose => 1
    case Info => 2
    case Warn => 3
    case Error => 4
    case Fatal => 5
  }

  function Compare(x: int, y: int): Ordering {
    if x < y then Less else if x == y then Equal else Greater
  }

  /** `partial_cmp(a, b)` is `Less` iff `partial_cmp(b, a)` is `Greater`, and `Equal` iff the variants coincide. */
  lemma PartialCmpAntisymmetric(a: LogLevel, b: LogLevel)
    ensures PartialCmp(a, b) == Some(Less) <==> PartialCmp(b, a) == Some(Greater)
    ensures PartialCmp(a, b) == Some(Equal) <==> a == b
  {
  }

  /** `<=` is a total order: reflexive (`Fatal <= Fatal` included), antisymmetric, transitive, total. */
  lemma LeIsTotalOrder(a: LogLevel, b: LogLevel, c: LogLevel)
    ensures Le(a, a)
    ensures Le(a, b) && Le(b, a) ==> a == b
    ensures Le(a, b) && Le(b, c) ==> Le(a, c)
    ensures Le(a, b) || Le(b, a)
    ensures Le(a, b) <==> Rank(a) <= Rank(b)
  {
  }

  /** The odd corner: `Fatal == Fatal` is false although `partial_cmp(Fatal, Fatal)` is `Equal`. */
  lemma FatalEqualityDisagreesWithOrder()
    ensures !Eq(Fatal, Fatal)
    ensures PartialCmp(Fatal, Fatal) == Some(Equal)
    ensures forall l: LogLevel :: l != Fatal ==> (Eq(l, l) && PartialCmp(l, l) == Some(Equal))
  {
  }
}

=== FILE: log_macros.dfy ===
/**
  The six logging macros of `src/logger/macros.rs`. Each macro carries a
  fixed level; it prints a line when the configured level (re-read from the
  environment at every call) is at most the macro's level under `<=`.
  The clock reading `date_and_time()` is a parameter; printing itself is
  modelled as the line that would be printed, or `None`.
 */
module LogMacros {
  import opened Wrappers
  import opened LogLevels
  import opened LogEnv
  import Logger

  /** The coloured tag each macro prints after the timestamp. */
  function Tag(macroLevel: LogLevel): string {
    match macroLevel
    case Debug => "\U{1B}[96;1;1m[DEBUG]\U{1B}[0m"
    case Verbose => "\U{1B}[35;1;1m[VERBOSE]\U{1B}[0m"
    case Info => "\U{1B}[32;1;1m[INFO]\U{1B}[0m"
    case Warn => "\U{1B}[33;1;1m[WARN]\U{1B}[0m"
    case Error => "\U{1B}[31;1;1m[ERROR]\U{1B}[0m"
    case Fatal => "\U{1B}[31;1;5;7m[FATAL]\U{1B}[0m"
  }

  /** The gate of every macro: `log_level() <= Level`. */
  function Enabled(env: Env, macroLevel: LogLevel): (on: bool)
    ensures on <==> Rank(ConfiguredLevel(env)) <= Rank(macroLevel)
  {
    Le(ConfiguredLevel(env), macroLevel)
  }

  /** What one macro call prints: `<now> <tag>\t<message>` when enabled, nothing otherwise. */
  function Emit(env: Env, macroLevel: LogLevel, now: string, message: string): (line: Option<string>)
    ensures line.Some? <==> Rank(ConfiguredLevel(env)) <= Rank(macroLevel)
    ensures line.Some? ==> |line.value| > |message| && line.value[|line.value| - |message|..] == message
  {
    LeIsTotalOrder(ConfiguredLevel(env), macroLevel, macroLevel);
    if Enabled(env, macroLevel) then Some(now + " " + Tag(macroLevel) + "\t" + message) else None
  }

  /** `debug!` prints only when the configured level is Debug. */
  lemma DebugGate(env: Env)
    ensures Enabled(env, Debug) <==> ConfiguredLevel(env) == Debug
  {
    LeIsTotalOrder(ConfiguredLevel(env), Debug, Debug);
  }

  /** `info!` prints iff the configured level is Debug, Verbose or Info. */
  lemma InfoGate(env: Env)
    ensures Enabled(env, Info) <==> ConfiguredLevel(env) in {Debug, Verbose, Info}
  {
    LeIsTotalOrder(ConfiguredLevel(env), Info, Info);
  }

  /** `fatal!` prints whatever the configuration, including when it is Fatal itself. */
  lemma FatalAlwaysPrints(env: Env)
    ensures Enabled(env, Fatal)
  {
    LeIsTotalOrder(ConfiguredLevel(env), Fatal, Fatal);
  }

  /** The gate is monotone: a macro of a level at least as severe as an enabled one is enabled. */
  lemma GateMonotone(env: Env, a: LogLevel, b: LogLevel)
    requires Enabled(env, a) && Le(a, b)
    ensures Enabled(env, b)
  {
    LeIsTotalOrder(ConfiguredLevel(env), a, b);
  }

  /** Without tabs in the timestamp, the printed message is the text after the first tab. */
  lemma MessageAfterFirstTab(env: Env, macroLevel: LogLevel, now: string, message: string)
    requires Enabled(env, macroLevel)
    requires '\t' !in now
    ensures var line := Emit(env, macroLevel, now, message).value;
      exists k :: 0 <= k < |line| && line[k] == '\t' && '\t' !in line[..k] && line[k + 1..] == message
  {
    var prefix := now + " " + Tag(macroLevel);
    var line := Emit(env, macroLevel, now, message).value;
    assert line == prefix + "\t" + message;
    TagHasNoTab(macroLevel);
    assert '\t' !in prefix;
    var k := |prefix|;
    assert line[..k] == prefix;
    assert line[k] == '\t';
    assert line[k + 1..] == message;
  }

  lemma TagHasNoTab(macroLevel: LogLevel)
    ensures '\t' !in Tag(macroLevel)
  {
  }

  /**
    The start-up configuration (`Builder::new().level(LogLevel::Debug).build()`)
    enables every macro.
   */
  lemma StartupEnablesEverything(env: Env, macroLevel: LogLevel)
    ensures Enabled(Logger.Build(Logger.SetLevel(Logger.New(), Debug), env).1, macroLevel)
  {
    var b := Logger.SetLevel(Logger.New(), Debug);
    Logger.InitIsReadBack(b, env);
    LeIsTotalOrder(Debug, macroLevel, macroLevel);
  }
}

=== FILE: logger.dfy ===
/**
  The logger configuration of `src/logger/mod.rs`: a builder record whose
  setters each replace one field, and `init`, which publishes the record as
  four environment variables, of which `log_level()` reads back `ALVEUS_LOG`.
  The Rust setters mutate `self` and return it; here they return the
  updated record.
 */
module Logger {
  import opened Wrappers
  import opened LogLevels
  import opened LogEnv

  datatype Builder = Builder(level: LogLevel, writeToConsole: bool, writeToFile: bool, filePath: string)

  const ConsoleVar: string := "ALVEUS_LOG_CONSOLE"
  const FileVar: string := "ALVEUS_LOG_FILE"
  const FilePathVar: string := "ALVEUS_LOG_FILE_PATH"

  /** `Builder::new()`: level Info, console on, file off, empty path. */
  function New(): (b: Builder)
    ensures b.level == Info && b.writeToConsole && !b.writeToFile && b.filePath == ""
  {
    Builder(Info, true, false, "")
  }

  /** The four setters: each replaces its own field and keeps the other three. */
  function SetLevel(b: Builder, level: LogLevel): (r: Builder)
    ensures r.level == level
    ensures r.writeToConsole == b.writeToConsole && r.writeToFile == b.writeToFile && r.filePath == b.filePath
  {
    b.(level := level)
  }

  function SetWriteToConsole(b: Builder, on: bool): (r: Builder)
    ensures r.writeToConsole == on
    ensures r.level == b.level && r.writeToFile == b.writeToFile && r.filePath == b.filePath
  {
    b.(writeToConsole := on)
  }

  function SetWriteToFile(b: Builder, on: bool): (r: Builder)
    ensures r.writeToFile == on
    ensures r.level == b.level && r.writeToConsole == b.writeToConsole && r.filePath == b.filePath
  {
    b.(writeToFile := on)
  }

  function SetFilePath(b: Builder, path: string): (r: Builder)
    ensures r.filePath == path
    ensures r.level == b.level && r.writeToConsole == b.writeToConsole && r.writeToFile == b.writeToFile
  {
    b.(filePath := path)
  }

  /** Each setter replaces its own field, keeps the other three, and a later call to the same setter wins. */
  lemma SettersChangeOneField(b: Builder, l: LogLevel, l': LogLevel, c: bool, f: bool, p: string)
    ensures SetLevel(b, l) == Builder(l, b.writeToConsole, b.writeToFile, b.filePath)
    ensures SetWriteToConsole(b, c) == Builder(b.level, c, b.writeToFile, b.filePath)
    ensures SetWriteToFile(b, f) == Builder(b.level, b.writeToConsole, f, b.filePath)
    ensures SetFilePath(b, p) == Builder(b.level, b.writeToConsole, b.writeToFile, p)
    ensures SetLevel(SetLevel(b, l'), l) == SetLevel(b, l)
  {
  }

  /** Rust's `bool::to_string`. */
  function BoolText(x: bool): string {
    if x then "true" else "false"
  }

  /** Rust's `str::parse::<bool>`, the reading that undoes `BoolText`. */
  function ParseBool(s: string): Option<bool> {
    if s == "true" then Some(true) else if s == "false" then Some(false) else None
  }

  /** `init`: writes the four configuration variables and leaves every other variable as it was. */
  function Init(b: Builder, env: Env): (env': Env)
    ensures env'.Keys == env.Keys + {LogVar, ConsoleVar, FileVar, FilePathVar}
    ensures env'[LogVar] == ToString(b.level)
    ensures env'[ConsoleVar] == BoolText(b.writeToConsole)
    ensures env'[FileVar] == BoolText(b.writeToFile)
    ensures env'[FilePathVar] == b.filePath
    ensures forall k :: k in env && k !in {LogVar, ConsoleVar, FileVar, FilePathVar} ==> env'[k] == env[k]
  {
    env[LogVar := ToString(b.level)]
       [ConsoleVar := BoolText(b.writeToConsole)]
       [FileVar := BoolText(b.writeToFile)]
       [FilePathVar := b.filePath]
  }

  /** `build`: runs `init` and hands back the builder unchanged. */
  function Build(b: Builder, env: Env): (out: (Builder, Env))
    ensures out.0 == b
    ensures out.1 == Init(b, env)
  {
    (b, Init(b, env))
  }

  /**
    The environment round trip: after `init`, `log_level()` reports the
    builder's level and the two switches read back as the builder's values.
   */
  lemma InitIsReadBack(b: Builder, env: Env)
    ensures ConfiguredLevel(Init(b, env)) == b.level
    ensures ParseBool(Init(b, env)[ConsoleVar]) == Some(b.writeToConsole)
    ensures ParseBool(Init(b, env)[FileVar]) == Some(b.writeToFile)
    ensures Init(b, env)[FilePathVar] == b.filePath
  {
    ConfiguredLevelOfToString(Init(b, env), b.level);
  }
}

=== FILE: table_store.dfy ===
/**
  The flat-file table store of `src/json.rs`. The `db` directory becomes a
  `Store`: the set of database directories and, per (database, table), the
  text of the file `db/<database>/<table>.json`. Parsing and re-printing the
  content with serde_json is the parameter `canon`, a deterministic partial
  canonicaliser whose error is serde's message. Operating-system failures
  are parameters too: how much of the canonical text `write_all` got into
  the file, and whether opening or reading the file fails in `read`.
 */
module TableStore {
  import opened Wrappers

  datatype QueryResultType = Success | Error

  /** The hand-written `PartialEq` of `QueryResultType`: true exactly on equal variants. */
  function ResultTypeEq(a: QueryResultType, b: QueryResultType): (eq: bool)
    ensures eq <==> a == b
  {
    match (a, b)
    case (Success, Success) => true
    case (Error, Error) => true
    case _ => false
  }

  /** One read or write intent: `content` is the document to write, `None` for a read. */
  datatype Query = Query(database: string, table: string, content: Option<string>)

  datatype QueryResult = QueryResult(status: QueryResultType, message: string, query: Query)

  /** The key of one table file. */
  datatype TableId = TableId(database: string, table: string)

  /** The `db` directory: the database directories and the text of each table file. */
  datatype Store = Store(databases: set<string>, tables: map<TableId, string>)

  /** A table file lives inside its database's directory. */
  predicate Valid(s: Store) {
    forall id :: id in s.tables ==> id.database in s.databases
  }

  /** The table a query names. */
  function IdOf(q: Query): TableId {
    TableId(q.database, q.table)
  }

  /** What happens when `read` opens and reads an existing table file. */
  datatype IoOutcome = IoOk | OpenFailed(openError: string) | ReadFailed(readError: string)

  const ProcessedMessage: string := "query processed successfully"
  const EmptyContentMessage: string := "query content is empty"
  const NotJsonPrefix: string := "query content is not valid json: "
  const NoDatabaseMessage: string := "database does not exist"
  const NoTableMessage: string := "table does not exist"
  const OpenErrorPrefix: string := "error opening file: "
  const ReadErrorPrefix: string := "error reading file: "

  /**
    The store once `write` has created the database directory and the table
    file if missing and opened the file with `truncate`: the table is empty
    whatever happens next.
   */
  function Truncated(s: Store, id: TableId): (s': Store)
    ensures s'.databases == s.databases + {id.database}
    ensures s'.tables.Keys == s.tables.Keys + {id} && s'.tables[id] == ""
    ensures forall other :: other in s.tables && other != id ==> s'.tables[other] == s.tables[other]
  {
    Store(s.databases + {id.database}, s.tables[id := ""])
  }

  /**
    The text that lands in the file: all of `json`, or, when `write_all`
    fails after `cut` characters, the part written before the failure. The
    failure is only logged, so it does not show in the result.
   */
  function Written(json: string, cut: Option<nat>): (text: string)
    ensures cut.None? ==> text == json
    ensures cut.Some? ==> |text| <= cut.value && text <= json
  {
    match cut
    case None => json
    case Some(n) => if n < |json| then json[..n] else json
  }

  /**
    `write`: truncate the table (creating it if needed), then reject a missing
    content, then reject content `canon` refuses, then write the canonical
    text. Every result echoes the query as given, content included.
   */
  function Write(s: Store, q: Query, canon: string -> Result<string, string>, cut: Option<nat>): (out: (Store, QueryResult))
    ensures q.database in out.0.databases && IdOf(q) in out.0.tables
    ensures out.0.databases == s.databases + {q.database}
    ensures out.0.tables.Keys == s.tables.Keys + {IdOf(q)}
    ensures forall other :: other in s.tables && other != IdOf(q) ==> out.0.tables[other] == s.tables[other]
    ensures out.1.query == q
  {
    var truncated := Truncated(s, IdOf(q));
    match q.content
    case None => (truncated, QueryResult(Error, EmptyContentMessage, q))
    case Some(text) =>
      match canon(text)
      case Err(e) => (truncated, QueryResult(Error, NotJsonPrefix + e, q))
      case Ok(json) =>
        (Store(truncated.databases, truncated.tables[IdOf(q) := Written(json, cut)]),
         QueryResult(Success, ProcessedMessage, q))
  }

  /**
    `read`: the database check, then the table check, then the open and the
    read of the file; only a full read succeeds, and it returns the file's
    text as the content. Errors echo the query unchanged.
   */
  function Read(s: Store, q: Query, io: IoOutcome): (r: QueryResult)
    ensures r.query.database == q.database && r.query.table == q.table
    ensures r.status == Success <==> q.database in s.databases && IdOf(q) in s.tables && io.IoOk?
    ensures r.status == Error ==> r.query == q
  {
    if q.database !in s.databases then QueryResult(Error, NoDatabaseMessage, q)
    else if IdOf(q) !in s.tables then QueryResult(Error, NoTableMessage, q)
    else match io
      case OpenFailed(e) => QueryResult(Error, OpenErrorPrefix + e, q)
      case ReadFailed(e) => QueryResult(Error, ReadErrorPrefix + e, q)
      case IoOk => QueryResult(Success, ProcessedMessage, q.(content := Some(s.tables[IdOf(q)])))
  }

  // ---------------------------------------------------------------------
  // Properties
  // ---------------------------------------------------------------------

  /** A write keeps every table file inside its database directory. */
  lemma WritePreservesValid(s: Store, q: Query, canon: string -> Result<string, string>, cut: Option<nat>)
    requires Valid(s)
    ensures Valid(Write(s, q, canon, cut).0)
  {
    var s' := Write(s, q, canon, cut).0;
    forall id | id in s'.tables
      ensures id.database in s'.databases
    {
      if id != IdOf(q) {
        assert id in s.tables;
      }
    }
  }

  /** Without content, `write` reports "query content is empty" and leaves the table empty. */
  lemma WriteWithoutContent(s: Store, q: Query, canon: string -> Result<string, string>, cut: Option<nat>)
    requires q.content.None?
    ensures var (s', r) := Write(s, q, canon, cut);
      r.status == Error && r.message == EmptyContentMessage && s'.tables[IdOf(q)] == ""
  {
  }

  /** Content the canonicaliser refuses gives "query content is not valid json: <error>" and an empty table. */
  lemma WriteInvalidJson(s: Store, q: Query, canon: string -> Result<string, string>, cut: Option<nat>)
    requires q.content.Some? && canon(q.content.value).Err?
    ensures var (s', r) := Write(s, q, canon, cut);
      && r.status == Error
      && r.message == NotJsonPrefix + canon(q.content.value).error
      && s'.tables[IdOf(q)] == ""
  {
  }

  /**
    `write` fails exactly when the content is missing or refused, and then
    the table is empty: a failed write loses what the table held before.
   */
  lemma WriteFailsOnlyOnBadContent(s: Store, q: Query, canon: string -> Result<string, string>, cut: Option<nat>)
    ensures var (s', r) := Write(s, q, canon, cut);
      && (r.status == Error <==> q.content.None? || canon(q.content.value).Err?)
      && (r.status == Error ==> s'.tables[IdOf(q)] == "")
  {
  }

  /**
    A successful write reports "query processed successfully", echoes the
    original (not the canonical) content, and the table holds the canonical
    text, or the part of it written before `write_all` failed.
   */
  lemma WriteStoresCanonical(s: Store, q: Query, canon: string -> Result<string, string>, cut: Option<nat>)
    requires q.content.Some? && canon(q.content.value).Ok?
    ensures var (s', r) := Write(s, q, canon, cut);
      var json := canon(q.content.value).value;
      && r.status == Success && r.message == ProcessedMessage
      && r.query.content == q.content
      && (cut.None? ==> s'.tables[IdOf(q)] == json)
      && s'.tables[IdOf(q)] <= json
  {
  }

  /**
    The last write to a table wins: what an earlier write to the same table
    did is invisible after the next one, whatever either wrote.
   */
  lemma LastWriteWins(s: Store, q1: Query, q2: Query, canon: string -> Result<string, string>, cut1: Option<nat>, cut2: Option<nat>)
    requires IdOf(q1) == IdOf(q2)
    ensures Write(Write(s, q1, canon, cut1).0, q2, canon, cut2).0 == Write(s, q2, canon, cut2).0
  {
    var s1 := Write(s, q1, canon, cut1).0;
    var a := Write(s1, q2, canon, cut2).0;
    var b := Write(s, q2, canon, cut2).0;
    assert a.databases == b.databases;
    assert a.tables.Keys == b.tables.Keys;
    forall id | id in a.tables
      ensures a.tables[id] == b.tables[id]
    {
      if id != IdOf(q2) {
        assert id in s.tables;
      }
    }
  }

  /** Writing the same query twice leaves the store as writing it once. */
  lemma WriteIdempotent(s: Store, q: Query, canon: string -> Result<string, string>, cut: Option<nat>)
    ensures var s1 := Write(s, q, canon, cut).0;
      Write(s1, q, canon, cut).0 == s1
  {
    LastWriteWins(s, q, q, canon, cut, cut);
  }

  /** A write changes no other database's tables and no other table of its database. */
  lemma WriteTouchesOneTable(s: Store, q: Query, canon: string -> Result<string, string>, cut: Option<nat>, other: TableId)
    requires other != IdOf(q)
    ensures var s' := Write(s, q, canon, cut).0;
      (other in s'.tables <==> other in s.tables)
      && (other in s.tables ==> s'.tables[other] == s.tables[other])
  {
  }

  /** `read` on a missing database reports it, before looking at the table, and echoes the query. */
  lemma ReadMissingDatabase(s: Store, q: Query, io: IoOutcome)
    requires q.database !in s.databases
    ensures Read(s, q, io) == QueryResult(Error, NoDatabaseMessage, q)
  {
  }

  /** `read` on an existing database without the table reports the table and echoes the query. */
  lemma ReadMissingTable(s: Store, q: Query, io: IoOutcome)
    requires q.database in s.databases && IdOf(q) !in s.tables
    ensures Read(s, q, io) == QueryResult(Error, NoTableMessage, q)
  {
  }

  /** A failing open or read of an existing table reports the operating system's message and echoes the query. */
  lemma ReadIoErrors(s: Store, q: Query, e: string)
    requires q.database in s.databases && IdOf(q) in s.tables
    ensures Read(s, q, OpenFailed(e)) == QueryResult(Error, OpenErrorPrefix + e, q)
    ensures Read(s, q, ReadFailed(e)) == QueryResult(Error, ReadErrorPrefix + e, q)
  {
  }

  /** A successful `read` returns exactly the stored text, whatever content the query carried. */
  lemma ReadReturnsStoredText(s: Store, q: Query)
    requires q.database in s.databases && IdOf(q) in s.tables
    ensures Read(s, q, IoOk) == QueryResult(Success, ProcessedMessage, Query(q.database, q.table, Some(s.tables[IdOf(q)])))
  {
  }

  /**
    The round trip: after a complete successful write, reading the same table
    returns the canonical text of what was written.
   */
  lemma WriteThenRead(s: Store, q: Query, canon: string -> Result<string, string>, reader: Query)
    requires q.content.Some? && canon(q.content.value).Ok?
    requires IdOf(reader) == IdOf(q)
    ensures Read(Write(s, q, canon, None).0, reader, IoOk).query.content == Some(canon(q.content.value).value)
  {
  }

  /** After a failed write, reading the table succeeds with the empty text. */
  lemma FailedWriteThenRead(s: Store, q: Query, canon: string -> Result<string, string>, cut: Option<nat>, reader: Query)
    requires q.content.None? || canon(q.content.value).Err?
    requires IdOf(reader) == IdOf(q)
    ensures var r := Read(Write(s, q, canon, cut).0, reader, IoOk);
      r.status == Success && r.query.content == Some("")
  {
  }

  /** The document of the module's own tests, as written and in the canonical form the test expects back. */
  const TestDocument: string := "{\"first_name\": \"John\",\"last_name\": \"Doe\",\"age\": 25}"
  const TestCanonical: string := "{\"age\":25,\"first_name\":\"John\",\"last_name\":\"Doe\"}"

  /**
    The module's test scenario: write the document to `test/users`, read it
    back in canonical form, and find no table `test/users2`, given a
    canonicaliser that maps the document to the canonical text the test
    expects.
   */
  lemma TestScenario(s: Store, canon: string -> Result<string, string>)
    requires canon(TestDocument) == Ok(TestCanonical)
    requires TableId("test", "users2") !in s.tables
    ensures var (s1, w) := Write(s, Query("test", "users", Some(TestDocument)), canon, None);
      && w.status == Success && w.message == ProcessedMessage
      && w.query.database == "test" && w.query.table == "users"
      && Read(s1, Query("test", "users", None), IoOk)
         == QueryResult(Success, ProcessedMessage, Query("test", "users", Some(TestCanonical)))
      && Read(s1, Query("test", "users2", None), IoOk)
         == QueryResult(Error, NoTableMessage, Query("test", "users2", None))
  {
    var q := Query("test", "users", Some(TestDocument));
    WriteStoresCanonical(s, q, canon, None);
    WriteThenRead(s, q, canon, Query("test", "users", None));
    assert TableId("test", "users2") != IdOf(q);
  }
}

=== FILE: text.dfy ===
/**
  String helpers shared by the model: substring search, Rust's `str::split`
  and its inverse `join`, ASCII lower-casing and decimal numerals.
  Strings are `seq<char>`.
 */
module Text {
  import opened Wrappers

  /** `pat` occurs in `s` starting at index `i`. */
  predicate MatchesAt(s: string, pat: string, i: nat) {
    i + |pat| <= |s| && s[i..i + |pat|] == pat
  }

  predicate Contains(s: string, pat: string) {
    exists i: nat | i <= |s| :: MatchesAt(s, pat, i)
  }

  /** The first index at or after `from` where `pat` occurs, if any. */
  function IndexFrom(s: string, pat: string, from: nat): (r: Option<nat>)
    decreases |s| - from
    ensures r.Some? ==> from <= r.value && MatchesAt(s, pat, r.value)
    ensures r.Some? ==> forall j: nat :: from <= j < r.value ==> !MatchesAt(s, pat, j)
    ensures r.None? ==> forall j: nat :: from <= j ==> !MatchesAt(s, pat, j)
  {
    if from + |pat| > |s| then None
    else if s[from..from + |pat|] == pat then Some(from)
    else IndexFrom(s, pat, from + 1)
  }

  /** The index of the first occurrence of `pat` in `s`. */
  function IndexOf(s: string, pat: string): (r: Option<nat>)
    ensures r.Some? <==> Contains(s, pat)
    ensures r.Some? ==> MatchesAt(s, pat, r.value)
    ensures r.Some? ==> forall j: nat :: j < r.value ==> !MatchesAt(s, pat, j)
  {
    IndexFrom(s, pat, 0)
  }

  /** A match with no match before it is the one `IndexOf` finds. */
  lemma IndexOfFirstMatch(s: string, pat: string, i: nat)
    requires MatchesAt(s, pat, i)
    requires forall j: nat :: j < i ==> !MatchesAt(s, pat, j)
    ensures IndexOf(s, pat) == Some(i)
  {
    assert Contains(s, pat);
  }

  /**
    When the first character of `pat` does not occur in `a`, the first match
    of `pat` in `a + pat + b` is the one right after `a`.
   */
  lemma IndexAfterPrefix(a: string, pat: string, b: string)
    requires |pat| > 0
    requires forall k :: 0 <= k < |a| ==> a[k] != pat[0]
    ensures IndexOf(a + pat + b, pat) == Some(|a|)
  {
    var s := a + pat + b;
    assert s[|a|..|a| + |pat|] == pat;
    forall j: nat | j < |a|
      ensures !MatchesAt(s, pat, j)
    {
      assert s[j] == a[j] != pat[0];
      assert j + |pat| <= |s| ==> s[j..j + |pat|][0] == s[j];
    }
    IndexOfFirstMatch(s, pat, |a|);
  }

  /** Rust's `parts.join(sep)`. */
  function Join(parts: seq<string>, sep: string): string {
    if |parts| == 0 then ""
    else if |parts| == 1 then parts[0]
    else parts[0] + sep + Join(parts[1..], sep)
  }

  /** Nothing before index `i` of `s` starts a match, so `s[..i]` holds none either. */
  lemma NoMatchInPrefix(s: string, pat: string, i: nat)
    requires |pat| > 0 && i <= |s|
    requires forall j: nat :: j < i ==> !MatchesAt(s, pat, j)
    ensures !Contains(s[..i], pat)
  {
    forall j: nat | j <= i
      ensures !MatchesAt(s[..i], pat, j)
    {
      if j + |pat| <= i {
        assert !MatchesAt(s, pat, j);
        assert s[..i][j..j + |pat|] == s[j..j + |pat|];
      }
    }
  }

  /**
    Rust's `s.split(sep)` for a non-empty separator: the pieces between
    successive non-overlapping occurrences of `sep`, scanning from the left.
   */
  function Split(s: string, sep: string): (r: seq<string>)
    requires |sep| > 0
    decreases |s|
    ensures |r| >= 1
    ensures Join(r, sep) == s
    ensures forall k :: 0 <= k < |r| ==> !Contains(r[k], sep)
    ensures forall j: nat :: j < |r[0]| ==> !MatchesAt(s, sep, j)
    ensures |r| >= 2 <==> Contains(s, sep)
  {
    match IndexOf(s, sep)
    case None =>
      NoMatchInPrefix(s, sep, |s|);
      assert s[..|s|] == s;
      [s]
    case Some(i) =>
      NoMatchInPrefix(s, sep, i);
      var rest := Split(s[i + |sep|..], sep);
      assert ([s[..i]] + rest)[1..] == rest;
      assert s == s[..i] + sep + s[i + |sep|..] by {
        assert s[i..i + |sep|] == sep;
      }
      [s[..i]] + rest
  }

  /** With a separator present, the first piece ends at the first match and the other pieces split what follows it. */
  lemma SplitTail(s: string, sep: string)
    requires |sep| > 0 && Contains(s, sep)
    ensures var parts := Split(s, sep);
      && |parts| >= 2
      && MatchesAt(s, sep, |parts[0]|)
      && parts[1..] == Split(s[|parts[0]| + |sep|..], sep)
  {
    var i := IndexOf(s, sep).value;
    assert Split(s, sep) == [s[..i]] + Split(s[i + |sep|..], sep);
  }

  /** Where piece `k` of a split begins: after the earlier pieces and their separators. */
  function PieceStart(parts: seq<string>, sep: string, k: nat): nat
    requires k <= |parts|
  {
    if k == 0 then 0 else PieceStart(parts, sep, k - 1) + |parts[k - 1]| + |sep|
  }

  lemma {:induction false} PieceStartOfTail(parts: seq<string>, sep: string, k: nat)
    requires 1 <= k <= |parts|
    ensures PieceStart(parts, sep, k) == |parts[0]| + |sep| + PieceStart(parts[1..], sep, k - 1)
  {
    if k > 1 {
      PieceStartOfTail(parts, sep, k - 1);
    }
  }

  /** A match in a suffix of `s` is a match in `s`, shifted by where the suffix begins. */
  lemma MatchesInSuffix(s: string, pat: string, b: nat, j: nat)
    requires b <= |s|
    ensures MatchesAt(s[b..], pat, j) <==> MatchesAt(s, pat, b + j)
  {
    if b + j + |pat| <= |s| {
      assert s[b..][j..j + |pat|] == s[b + j..b + j + |pat|];
    }
  }

  /**
    `piece` sits in `s` at `start`, no occurrence of `sep` begins inside it,
    and unless it is the last piece an occurrence begins right after it.
   */
  predicate LeftmostAt(s: string, sep: string, piece: string, start: nat, last: bool) {
    && start + |piece| <= |s|
    && s[start..start + |piece|] == piece
    && (forall j: nat :: start <= j < start + |piece| ==> !MatchesAt(s, sep, j))
    && (!last ==> MatchesAt(s, sep, start + |piece|))
  }

  /** A piece found in a suffix of `s` is found in `s`, shifted by where the suffix begins. */
  lemma ShiftLeftmost(s: string, sep: string, b: nat, piece: string, start: nat, last: bool)
    requires b <= |s| && LeftmostAt(s[b..], sep, piece, start, last)
    ensures LeftmostAt(s, sep, piece, b + start, last)
  {
    assert s[b..][start..start + |piece|] == s[b + start..b + start + |piece|];
    forall j: nat | b + start <= j < b + start + |piece|
      ensures !MatchesAt(s, sep, j)
    {
      MatchesInSuffix(s, sep, b, j - b);
    }
    MatchesInSuffix(s, sep, b, start + |piece|);
  }

  /** The first piece is the leftmost one. */
  lemma SplitFirstLeftmost(s: string, sep: string)
    requires |sep| > 0
    ensures LeftmostAt(s, sep, Split(s, sep)[0], 0, |Split(s, sep)| == 1)
  {
    var parts := Split(s, sep);
    SplitFirstPiece(s, sep);
    if |parts| >= 2 {
      SplitTail(s, sep);
    } else {
      assert s[..|parts[0]|] == s;
    }
  }

  /** Every piece of a split is the leftmost one: each ends at the first occurrence of `sep` after its start. */
  lemma {:induction false} SplitPiecesAreLeftmost(s: string, sep: string, k: nat)
    requires |sep| > 0 && k < |Split(s, sep)|
    ensures LeftmostAt(s, sep, Split(s, sep)[k], PieceStart(Split(s, sep), sep, k), k + 1 == |Split(s, sep)|)
    decreases |s|
  {
    var parts := Split(s, sep);
    if k == 0 {
      SplitFirstLeftmost(s, sep);
    } else {
      SplitTail(s, sep);
      var b := |parts[0]| + |sep|;
      var rest := Split(s[b..], sep);
      SplitPiecesAreLeftmost(s[b..], sep, k - 1);
      PieceStartOfTail(parts, sep, k);
      LeftmostOfTail(s, sep, k, parts, rest, b);
    }
  }

  /** Step of `SplitPiecesAreLeftmost`: piece `k` is piece `k - 1` of the split after the first separator. */
  lemma LeftmostOfTail(s: string, sep: string, k: nat, parts: seq<string>, rest: seq<string>, b: nat)
    requires 0 < k < |parts| && rest == parts[1..] && b <= |s|
    requires LeftmostAt(s[b..], sep, rest[k - 1], PieceStart(rest, sep, k - 1), k == |rest|)
    requires b + PieceStart(rest, sep, k - 1) == PieceStart(parts, sep, k)
    ensures LeftmostAt(s, sep, parts[k], PieceStart(parts, sep, k), k + 1 == |parts|)
  {
    assert rest[k - 1] == parts[k];
    ShiftLeftmost(s, sep, b, parts[k], PieceStart(rest, sep, k - 1), k + 1 == |parts|);
  }

  /**
    If no occurrence of `sep` starts inside `a` (counting ones that run on
    into `sep` itself), splitting `a + sep + t` yields `a` followed by the
    pieces of `t`.
   */
  lemma {:induction false} SplitCons(a: string, sep: string, t: string)
    requires |sep| > 0
    requires forall j: nat :: j < |a| ==> !MatchesAt(a + sep + t, sep, j)
    ensures Split(a + sep + t, sep) == [a] + Split(t, sep)
  {
    var s := a + sep + t;
    assert s[|a|..|a| + |sep|] == sep;
    IndexOfFirstMatch(s, sep, |a|);
    assert s[..|a|] == a;
    assert s[|a| + |sep|..] == t;
  }

  /** A text that does not contain the one-character string `[c]` does not contain `c`. */
  lemma NoCharIfNotContains(s: string, c: char)
    requires !Contains(s, [c])
    ensures c !in s
  {
    forall i | 0 <= i < |s|
      ensures s[i] != c
    {
      assert s[i..i + 1] == [s[i]];
      assert !MatchesAt(s, [c], i);
    }
  }

  /** No piece of a split on a single character holds that character. */
  lemma SplitPieceHasNoChar(s: string, c: char, k: nat)
    requires k < |Split(s, [c])|
    ensures c !in Split(s, [c])[k]
  {
    NoCharIfNotContains(Split(s, [c])[k], c);
  }

  /** The first piece is all of `s` when it holds no separator, and otherwise is followed in `s` by a separator. */
  lemma SplitFirstPiece(s: string, sep: string)
    requires |sep| > 0
    ensures !Contains(s, sep) ==> Split(s, sep) == [s]
    ensures Contains(s, sep) ==>
      |Split(s, sep)[0]| + |sep| <= |s| && s[..|Split(s, sep)[0]| + |sep|] == Split(s, sep)[0] + sep
  {
    var parts := Split(s, sep);
    if Contains(s, sep) {
      assert s == parts[0] + sep + Join(parts[1..], sep);
      assert s[..|parts[0]| + |sep|] == parts[0] + sep;
    } else {
      assert |parts| == 1;
    }
  }

  /**
    With at least one separator in `s`, the first two pieces of the split
    and the separator between them make up a prefix of `s`, which ends
    where `s` ends or where the next separator begins.
   */
  lemma SplitSecondPiece(s: string, sep: string)
    requires |sep| > 0 && Contains(s, sep)
    ensures |Split(s, sep)| >= 2
    ensures var parts := Split(s, sep);
      var n := |parts[0]| + |sep| + |parts[1]|;
      && n <= |s|
      && s[..n] == parts[0] + sep + parts[1]
      && (n == |s| || (n + |sep| <= |s| && s[n..n + |sep|] == sep))
  {
    var parts := Split(s, sep);
    var n := |parts[0]| + |sep| + |parts[1]|;
    assert s == parts[0] + sep + Join(parts[1..], sep);
    if |parts| == 2 {
      assert Join(parts[1..], sep) == parts[1];
      assert s[..n] == s;
    } else {
      assert parts[1..][1..] == parts[2..];
      assert Join(parts[1..], sep) == parts[1] + sep + Join(parts[2..], sep);
      assert s == (parts[0] + sep + parts[1]) + sep + Join(parts[2..], sep);
      assert s[..n] == parts[0] + sep + parts[1];
      assert s[n..n + |sep|] == sep;
    }
  }

  /** A match in a suffix is a match in the whole. */
  lemma ContainsInSuffix(a: string, b: string, pat: string)
    requires Contains(b, pat)
    ensures Contains(a + b, pat)
  {
    var i: nat :| i <= |b| && MatchesAt(b, pat, i);
    assert (a + b)[|a| + i..|a| + i + |pat|] == b[i..i + |pat|];
    assert MatchesAt(a + b, pat, |a| + i);
  }

  /** A text contains whatever it starts with. */
  lemma ContainsPrefix(pat: string, b: string)
    ensures Contains(pat + b, pat)
  {
    assert (pat + b)[0..|pat|] == pat;
    assert MatchesAt(pat + b, pat, 0);
  }

  /**
    No occurrence of `sep` starts inside `a`, even one running on into a
    following `sep`, when `a` followed by all but the last character of
    `sep` does not contain `sep`.
   */
  lemma NoMatchStartsInside(a: string, sep: string, t: string)
    requires |sep| > 0 && !Contains(a + sep[..|sep| - 1], sep)
    ensures forall j: nat :: j < |a| ==> !MatchesAt(a + sep + t, sep, j)
  {
    var s := a + sep + t;
    var u := a + sep[..|sep| - 1];
    forall j: nat | j < |a|
      ensures !MatchesAt(s, sep, j)
    {
      assert !MatchesAt(u, sep, j);
      assert s[j..j + |sep|] == u[j..j + |sep|] by {
        forall i | j <= i < j + |sep|
          ensures s[i] == u[i]
        {
          if i >= |a| {
            assert s[i] == sep[i - |a|];
          }
        }
      }
    }
  }

  /** A text whose extension does not contain `pat` does not contain it either. */
  lemma NotContainsInPrefix(a: string, b: string, pat: string)
    requires !Contains(a + b, pat)
    ensures !Contains(a, pat)
  {
    forall j: nat | j <= |a|
      ensures !MatchesAt(a, pat, j)
    {
      assert !MatchesAt(a + b, pat, j);
      if j + |pat| <= |a| {
        assert (a + b)[j..j + |pat|] == a[j..j + |pat|];
      }
    }
  }

  /** A piece free of the separator's first character ends at the separator. */
  lemma FirstCharNoEarlierMatch(a: string, sep: string, t: string)
    requires |sep| > 0 && sep[0] !in a
    ensures forall j: nat :: j < |a| ==> !MatchesAt(a + sep + t, sep, j)
  {
    forall j: nat | j < |a|
      ensures !MatchesAt(a + sep + t, sep, j)
    {
      assert (a + sep + t)[j] == a[j];
      assert j + |sep| <= |a + sep + t| ==> (a + sep + t)[j..j + |sep|][0] == a[j];
    }
  }

  /** A text without the separator's first character is a single piece. */
  lemma SplitWithoutFirstChar(s: string, sep: string)
    requires |sep| > 0 && sep[0] !in s
    ensures Split(s, sep) == [s]
  {
    forall j: nat | j < |s|
      ensures !MatchesAt(s, sep, j)
    {
      assert s[j] != sep[0];
    }
  }

  /** ASCII lower-casing of one character. */
  function LowerChar(c: char): char {
    if 'A' <= c <= 'Z' then (c as int + 32) as char else c
  }

  /** Lower-cases every ASCII letter of `s` and keeps every other character. */
  function Lower(s: string): (r: string)
    ensures |r| == |s|
    ensures forall i :: 0 <= i < |r| ==> !('A' <= r[i] <= 'Z')
    ensures forall i :: 0 <= i < |s| && !('A' <= s[i] <= 'Z') ==> r[i] == s[i]
    ensures forall i :: 0 <= i < |s| && 'A' <= s[i] <= 'Z' ==> r[i] as int == s[i] as int + 32
  {
    seq(|s|, i requires 0 <= i < |s| => LowerChar(s[i]))
  }

  /** A string without upper-case ASCII letters is its own lower-case form. */
  lemma LowerOfLower(s: string)
    requires forall i :: 0 <= i < |s| ==> !('A' <= s[i] <= 'Z')
    ensures Lower(s) == s
  {
  }

  /** Lower-casing twice is lower-casing once. */
  lemma LowerIdempotent(s: string)
    ensures Lower(Lower(s)) == Lower(s)
  {
    LowerOfLower(Lower(s));
  }

  function DigitChar(d: nat): char
    requires d < 10
  {
    ('0' as int + d) as char
  }

  predicate IsDigit(c: char) {
    '0' <= c <= '9'
  }

  /** The decimal numeral of `n`, without sign or leading zeros (Rust's `n.to_string()`). */
  function Decimal(n: nat): (r: string)
    ensures |r| >= 1
    ensures forall i :: 0 <= i < |r| ==> IsDigit(r[i])
    ensures |r| > 1 ==> r[0] != '0'
  {
    if n < 10 then [DigitChar(n)] else Decimal(n / 10) + [DigitChar(n % 10)]
  }

  /** Reads a non-empty string of decimal digits; `None` for anything else. */
  function ParseDecimal(s: string): (r: Option<nat>)
    decreases |s|
  {
    if |s| == 0 || !IsDigit(s[|s| - 1]) then None
    else if |s| == 1 then Some(s[0] as int - '0' as int)
    else match ParseDecimal(s[..|s| - 1])
      case None => None
      case Some(m) => Some(m * 10 + (s[|s| - 1] as int - '0' as int))
  }

  /** Reading back a numeral gives the number it was written from. */
  lemma {:induction false} ParseDecimalOfDecimal(n: nat)
    ensures ParseDecimal(Decimal(n)) == Some(n)
  {
    if n >= 10 {
      var d := Decimal(n);
      assert d[..|d| - 1] == Decimal(n / 10);
      ParseDecimalOfDecimal(n / 10);
    }
  }
}

=== FILE: wrappers.dfy ===
/** The two failure-carrying shapes the modelled Rust code uses: `Option` and `Result`. */
module Wrappers {

  datatype Option<+T> = None | Some(value: T)

  /** Rust's `Result<T, E>`, with the same constructor names. */
  datatype Result<+T, +E> = Ok(value: T) | Err(error: E)
}
